=== FILE: README.md ===
# JWTMiddleware, modelled in Dafny

A model of the request-processing core of JWTMiddleware, a set of middlewares
for the Vapor web framework. Each middleware works on one request. It reads
the bearer token, the body, the method and the path. It may verify the token,
store a JWT payload or authenticate a user. Then it either calls the next
responder once or fails with an error. The middlewares are:

- `RouteRestrictionMiddleware` matches the request against route patterns,
  each with an optional method. When no pattern applies, the request passes
  (fail-open). When some apply, the stored payload's status must be allowed
  by one of them, or the payload's ID must be one the request is entitled to.
  Those IDs are the ones in the path under the model-slug parameters of the
  first applying restriction's pattern, plus the authenticated user's ID. A
  missing payload and a denied one both fail with the one configured status.
- `PermissionsMiddleware` is the same status gate without routes.
- `JWTAuthenticatableMiddleware`, and its older copy `JWTAuthenticatableMiddlware`,
  authenticate the request's model. They try an existing authentication
  first, then credentials in the body, then the payload stored for a bearer
  header. A body that does not decode as a JSON object fails the request
  with the decoder's error, and the bearer header is then never looked at.
  A decodable body without both credential fields, and no bearer header,
  gives 401. The default implementations
  of `BasicJWTAuthenticatable` do the lookups. A user is found by the
  payload's ID, or by username and then a BCrypt password check.
- `JWTStorageMiddleware` (the older `JWTVerificationMiddleware<Payload>`)
  re-stores the payload a previous stage stored.
- `JWTVerificationMiddleware` checks the token's signature.
- The newest `JWTMiddleware<T>` verifies the token and stores its payload in
  `userInfo`. The `loggedIn` and `payload` accessors read that entry.

## How it is modelled

- `Requests.Request` is a class. Its method, path, bearer token and decoded
  body are constants. The state a middleware may change is held in fields:
  - the storage map of payloads;
  - the authenticated user;
  - `nextLog`, the state at each call of the next responder.
- Each middleware's decision is a pure function. Where the middleware may
  write to the request, that function gives an `Effect`: the outcome
  (`Forwarded` or `Failed(error)`) and the state left behind. Where it only
  reads (`Decide`, `Gate`, `Verify`), the function gives the `Outcome`
  alone. A `Respond` method beside it changes the request. Its `ensures`
  ties the result, the new state and the responder log to that function,
  and says the state is unchanged where the middleware only reads.
- The database is the sequence `table` in `Models.UserModel`, searched
  first-match (`Models.First`). BCrypt, token issuing and ID parsing are
  fields of function type in the same datatype. Parameter resolvers and the JWT signer are
  function parameters.
- Both "skelpo-payload" (request storage) and "jwt_payload" (`userInfo`)
  are keys of one map. The two keys differ, so neither write disturbs the
  other entry.
- The key `payload(as:)` reads (`.payloadKey`) is not part of this model.
  It is taken to be "skelpo-payload", the key the authenticators write.
- Vapor's built-in parameter types are taken to have lower-cased type names
  as routing slugs ("string", "int", ..., "uuid").

## Model

| member | source | states |
|---|---|---|
| Models.First | Sources/JWTAuthenticatable/BasicJWTAuthenticatable.swift:84-87 | The database lookup: no result iff no row matches; otherwise the earliest matching row |
| Requests.Login | Sources/JWTAuthenticatable/BasicJWTAuthenticatable.swift:92-93 | After a login the user is authenticated and the payload is stored under "skelpo-payload"; every other storage entry is kept |
| RequestJwt.AccessToken | Sources/JWTMiddleware/Request+JWT.swift:11-16 | Succeeds iff a bearer header is present, giving its token; otherwise 401 with no reason |
| RequestJwt.StoredPayload | Sources/JWTMiddleware/Request+JWT.swift:29-34 | Succeeds iff a payload is stored under the payload key, giving it; otherwise 500 "No JWTMiddleware has been registered for the current route." |
| RequestJwt.PayloadData | Sources/JWTMiddleware/Request+JWT.swift:47-59 | The same 500 when nothing is stored; otherwise the conversion of the stored payload |
| RequestJwt.LoginReadsBack | Sources/JWTMiddleware/Request+JWT.swift:29-59 | What a login stores is what `payload(as:)` reads back, and `payloadData` gives its conversion, for any conversion |
| RouteRestrictions.Join | Sources/JWTMiddleware/AdminMiddleware.swift:47 | The joined pattern holds exactly the components of the arguments; their order is stated by `JoinAppend` and `JoinOne` |
| RouteRestrictions.JoinAppend | Sources/JWTMiddleware/AdminMiddleware.swift:47 | Joining concatenates: the components of earlier arguments come first, in their order |
| RouteRestrictions.JoinOne | Sources/JWTMiddleware/AdminMiddleware.swift:47 | One argument joins to its own components |
| RouteRestrictions.JoinAt | Sources/JWTMiddleware/AdminMiddleware.swift:47 | Each argument's components stand, in order, between those of the arguments before it and those after it |
| RouteRestrictions.NewRestriction | Sources/JWTMiddleware/AdminMiddleware.swift:45-49 | Keeps the method and the allowed statuses; the path is the arguments' components concatenated in argument order, and one component per argument when each argument is one component |
| RouteRestrictions.JoinSingletons | Sources/JWTMiddleware/AdminMiddleware.swift:45-49 | One-component arguments join to the pattern with those components in order |
| RouteRestrictions.MergeParameters | Sources/JWTMiddleware/AdminMiddleware.swift:81-97 | The resolver table has the caller's slugs and all 14 default slugs; the caller's resolver wins on a shared slug |
| RouteRestrictions.NewRouteRestrictionMiddleware | Sources/JWTMiddleware/AdminMiddleware.swift:77-98 | Keeps the restrictions and the failure status; every default slug and every custom resolver is registered |
| RouteRestrictions.DefaultFailureIsNotFound | Sources/JWTMiddleware/AdminMiddleware.swift:77 | The failure status defaults to 404 |
| RouteRestrictions.Compare | Sources/JWTMiddleware/AdminMiddleware.swift:164-194 | `false` only with a differing constant in the overlap of pattern and path; an error only with a parameter in that overlap |
| RouteRestrictions.CompareAllContinue | Sources/JWTMiddleware/AdminMiddleware.swift:168-193 | When every position of the overlap lets the walk go on, the path matches, whatever lies beyond the overlap |
| RouteRestrictions.CompareFirstStop | Sources/JWTMiddleware/AdminMiddleware.swift:168-191 | The first position that stops the walk decides: a catch-all matches, a differing constant fails, an unknown slug gives 500, and a resolver's error is passed on |
| RouteRestrictions.CompareOverlap | Sources/JWTMiddleware/AdminMiddleware.swift:168 | Only the overlap of pattern and path (the `zip`) is looked at |
| RouteRestrictions.CleanPath | Sources/JWTMiddleware/AdminMiddleware.swift:106 | The path without its leading element |
| RouteRestrictions.MethodMatchesExactly | Sources/JWTMiddleware/AdminMiddleware.swift:117 | A restriction without a method matches every request method; one with a method matches that method only |
| RouteRestrictions.Passing | Sources/JWTMiddleware/AdminMiddleware.swift:109-118 | The filter keeps no more restrictions than it is given; the four lemmas below state which |
| RouteRestrictions.PassingSucceeds | Sources/JWTMiddleware/AdminMiddleware.swift:109-118 | The filter succeeds iff no pattern comparison throws |
| RouteRestrictions.PassingFirstError | Sources/JWTMiddleware/AdminMiddleware.swift:109-118 | A failing filter gives the error of the first comparison that throws |
| RouteRestrictions.PassingMembers | Sources/JWTMiddleware/AdminMiddleware.swift:109-118 | A succeeding filter keeps exactly the restrictions whose pattern matches the path and whose method, if any, is the request's |
| RouteRestrictions.PassingHead | Sources/JWTMiddleware/AdminMiddleware.swift:109-118 | The head of the filtered list (`passes[0]`) is the first restriction that applies |
| RouteRestrictions.AllowedStatuses | Sources/JWTMiddleware/AdminMiddleware.swift:134 | A status is in the joined list iff some passing restriction allows it |
| RouteRestrictions.SlugElements | Sources/JWTMiddleware/AdminMiddleware.swift:234-240 | The zip, `compactMap` and `filter` stages: the selected elements are exactly the path elements under a parameter with the slug |
| RouteRestrictions.SlugElementsAppend | Sources/JWTMiddleware/AdminMiddleware.swift:234-240 | The selection works position by position: two aligned stretches of path give the first stretch's elements followed by the second's, so path order and repetitions are kept |
| RouteRestrictions.SlugElementsOne | Sources/JWTMiddleware/AdminMiddleware.swift:235-236 | One position gives its element exactly when the pattern has a parameter with the slug there |
| RouteRestrictions.ParseIds | Sources/JWTMiddleware/AdminMiddleware.swift:244-249 | The throwing `map`: on success one ID per element, in order, each the element's parse; otherwise 400 naming the first element that does not parse, all before it parsing |
| RouteRestrictions.Ids | Sources/JWTMiddleware/AdminMiddleware.swift:230-251 | 400 iff some path element under a parameter with the model's slug does not parse, naming the first such element in path order; otherwise one ID per selected element, in path order, each that element's parse |
| RouteRestrictions.IdsKeepPathOrder | Sources/JWTMiddleware/AdminMiddleware.swift:230-251 | Two parseable elements under the model's slug give their IDs in path order |
| RouteRestrictions.AuthedIds | Sources/JWTMiddleware/AdminMiddleware.swift:207-218 | Fails iff `ids` fails, with its error; otherwise the path IDs in their order, followed by the authenticated user's ID when there is one |
| RouteRestrictions.GrantedExactly | Sources/JWTMiddleware/AdminMiddleware.swift:133-135 | The guard holds iff a payload is stored and some passing restriction allows its status, or the first passing restriction's IDs contain its ID; an `ids` error denies |
| RouteRestrictions.Decide | Sources/JWTMiddleware/AdminMiddleware.swift:105-149 | A failure is either the configured status with no reason or a pattern comparison's error |
| RouteRestrictions.DecideForwardsExactly | Sources/JWTMiddleware/AdminMiddleware.swift:105-149 | Forwarded iff no comparison throws and either no restriction applies, or a payload is stored and it is admitted by status (some applying restriction allows it) or by ID (the first applying restriction's IDs contain it) |
| RouteRestrictions.SelfAccessAtFirst | Sources/JWTMiddleware/AdminMiddleware.swift:135 | Self-access is judged only by the IDs of the first applying restriction, `passes[0]` |
| RouteRestrictions.FailOpen | Sources/JWTMiddleware/AdminMiddleware.swift:120-124 | When no restriction applies, the request goes on whatever is stored |
| RouteRestrictions.FailureCollapses | Sources/JWTMiddleware/AdminMiddleware.swift:126-145 | Once patterns compare without error, every failure is the configured status; a missing payload under an applying restriction fails with it |
| RouteRestrictions.AuthenticatedOwnerPasses | Sources/JWTMiddleware/AdminMiddleware.swift:213-216 | An authenticated user whose ID equals the payload's passes every applying restriction, whatever its status |
| RouteRestrictions.SelfAccessScenario | Sources/JWTMiddleware/AdminMiddleware.swift:133-138 | On `GET /users/:user` allowing only "admin", a non-admin passes exactly when the path ID is its own |
| RouteRestrictions.AdminScenario | Sources/JWTMiddleware/AdminMiddleware.swift:133-138 | On "admin" then a catch-all, allowing "admin", an admin passes and anyone else gets the configured status |
| RouteRestrictions.Respond | Sources/JWTMiddleware/AdminMiddleware.swift:105-149 | The outcome is `Decide`'s; the request is not changed, and the next responder is called once exactly when it forwards |
| Permissions.NewPermissionsMiddleware | Sources/JWTMiddleware/PermissionsMiddleware.swift:37-40 | Keeps the allowed statuses and the failure status |
| Permissions.DefaultFailureIsNotFound | Sources/JWTMiddleware/PermissionsMiddleware.swift:37 | The failure status defaults to 404 |
| Permissions.Gate | Sources/JWTMiddleware/PermissionsMiddleware.swift:47-68 | Forwarded iff a payload is stored and its status is allowed; every failure is the configured status with no reason |
| Permissions.MissingLooksDenied | Sources/JWTMiddleware/PermissionsMiddleware.swift:58-64 | A missing payload and a denied one fail identically |
| Permissions.EmptyAllowListRejects | Sources/JWTMiddleware/PermissionsMiddleware.swift:55-57 | With no allowed statuses every request fails |
| Permissions.Respond | Sources/JWTMiddleware/PermissionsMiddleware.swift:47-68 | The outcome is `Gate`'s; the request is not changed, and the next responder is called once exactly when it forwards |
| BasicAuth.AuthBody | Sources/JWTAuthenticatable/BasicJWTAuthenticatable.swift:69-78 | The decoder's error iff the body is not an object. Credentials iff both the username key and "password" are present, taken from those fields. Nothing otherwise |
| BasicAuth.CodingKeyStrings | Sources/JWTAuthenticatable/BasicJWTAuthenticatable.swift:34-39 | The password is read from "password"; the username from the `usernameKey` property's name, or "email" when none is found; the two keys clash iff that name is "password" |
| BasicAuth.AuthBodyRoundTrip | Sources/JWTAuthenticatable/BasicJWTAuthenticatable.swift:34-39 | Credentials written under the coding keys decode back unchanged (when the username property is not named "password") |
| BasicAuth.PayloadLogin | Sources/JWTAuthenticatable/BasicJWTAuthenticatable.swift:80-97 | A stored user with the payload's ID; 404 "No user found with the ID from the access token" iff there is none |
| BasicAuth.UserNamed | Sources/JWTAuthenticatable/BasicJWTAuthenticatable.swift:106 | No user iff no stored user has the username; otherwise the earliest stored user with it |
| BasicAuth.CredentialLogin | Sources/JWTAuthenticatable/BasicJWTAuthenticatable.swift:99-126 | Decided by the first user with the username: none gives 401 "Username or password is incorrect"; a rejected password gives the same 401; a password-check or token error is passed on; a matching password gives that user and the payload issued to it |
| BasicAuth.CorrectCredentialsLogIn | Sources/JWTAuthenticatable/BasicJWTAuthenticatable.swift:106-124 | When the first user with the username accepts the password and is issued a payload, the login gives that user and payload |
| BasicAuth.UnknownUserLooksLikeWrongPassword | Sources/JWTAuthenticatable/BasicJWTAuthenticatable.swift:100-113 | An unknown username, and a known one whose first user rejects the password, fail with the same error |
| BasicAuth.AuthenticatePayload | Sources/JWTAuthenticatable/BasicJWTAuthenticatable.swift:80-97 | Returns `PayloadLogin`'s result; on success the request is logged in with the payload, otherwise unchanged; the responder is not called |
| BasicAuth.AuthenticateBody | Sources/JWTAuthenticatable/BasicJWTAuthenticatable.swift:99-126 | Returns the user `CredentialLogin` finds, or its error. On success the request is logged in with the issued payload; otherwise nothing is written |
| AuthMiddleware.Dispatch | Sources/JWTMiddleware/JWTAuthenticatableMiddleware.swift:19-55 | A failure leaves the state unchanged. A forwarded request is authenticated, and if it was not before, a table user is now authenticated and a payload stored. An already authenticated request is forwarded unchanged; otherwise a body that does not decode fails with the decoder's error. With the lemmas below, which user, which payload and which error are fixed on every input |
| AuthMiddleware.BodyBeforeBearer | Sources/JWTMiddleware/JWTAuthenticatableMiddleware.swift:27-36 | Body credentials are used whether or not a bearer header is present. On success the request goes on logged in as the user the credential login found, with the payload issued to it; on failure the login's error (the 401 "Username or password is incorrect", or a collaborator's error) is passed on and nothing changes |
| AuthMiddleware.BearerUsesStoredPayload | Sources/JWTMiddleware/JWTAuthenticatableMiddleware.swift:38-46 | With a bearer header and no credentials: 500 when no payload is stored; otherwise forwarded iff a user has the payload's ID, logged in as that user with the stored payload, and else the 404 "No user found with the ID from the access token" with nothing changed |
| AuthMiddleware.UndecodableBodyFails | Sources/JWTMiddleware/JWTAuthenticatableMiddleware.swift:27 | A body that does not decode fails the request with the decoder's error, whatever the bearer header, and nothing changes |
| AuthMiddleware.NeitherIsUnauthorized | Sources/JWTMiddleware/JWTAuthenticatableMiddleware.swift:48-52 | With neither credentials nor a bearer header: 401 with the given reason, nothing changed |
| AuthMiddleware.Authenticate | Sources/JWTMiddleware/JWTAuthenticatableMiddleware.swift:19-55 | The outcome and new state are `Dispatch`'s, and the next responder is called once exactly when it forwards |
| AuthMiddleware.Respond | Sources/JWTMiddleware/JWTAuthenticatableMiddleware.swift:19-55 | As `Authenticate`, with the reason "No authorized user or data to authorize a user was found" |
| LegacyAuthMiddleware.Respond | Sources/JWTMiddlware/JWTMiddlware.swift:11-30 | As `Authenticate`, with the reason "No authorized user to data to authorize a user was found" |
| LegacyAuthMiddleware.SameDispatchAsNewer | Sources/JWTMiddlware/JWTMiddlware.swift:11-30 | The older and newer versions leave the same state and forward alike; they differ only in the final 401's reason |
| Verification.StorageStep | Sources/JWTMiddleware/JWTVerificationMiddleware.swift:16-27 | Forwarded iff a payload is stored, rewriting it under "skelpo-payload"; otherwise the 500 of `payload(as:)` with nothing changed |
| Verification.StorageStepChangesNothing | Sources/JWTMiddleware/JWTVerificationMiddleware.swift:23-25 | The storage stage never changes the request's state |
| Verification.StorageRespond | Sources/JWTMiddleware/JWTVerificationMiddleware.swift:16-27 | The outcome and new state are `StorageStep`'s, and the next responder is called once exactly when it forwards |
| LegacyVerification.Respond | Sources/JWTMiddlware/JWTVerificationMiddleware.swift:16-27 | The older verification middleware does exactly what `StorageRespond` does |
| Verification.Verify | Sources/JWTMiddleware/JWTVerificationMiddleware.swift:41-59 | Forwarded iff a bearer token is present and verifies. No header gives 400; a token that fails gives 403 "JWT verification failed"; the verifier's own error is passed on |
| Verification.MissingHeaderIsNotForbidden | Sources/JWTMiddleware/JWTVerificationMiddleware.swift:45-58 | A missing header (400) and a bad token (403) are told apart |
| Verification.VerificationRespond | Sources/JWTMiddleware/JWTVerificationMiddleware.swift:41-59 | The outcome is `Verify`'s; the request is not changed, and the next responder is called once exactly when it forwards |
| JwtMiddleware.CurrentPayload | Sources/JWTMiddleware/JWTMiddleware.swift:36-37 | The payload getter, defined only when logged in, gives the entry stored under "jwt_payload" |
| JwtMiddleware.LoggedInAfterGuard | Sources/JWTMiddleware/JWTMiddleware.swift:32-34 | `loggedIn` is false on a fresh request, true after the middleware forwards, and unchanged by a failure |
| JwtMiddleware.SetPayload | Sources/JWTMiddleware/JWTMiddleware.swift:38 | After the setter the request is logged in and the getter gives the new payload; nothing else changes |
| JwtMiddleware.Guard | Sources/JWTMiddleware/JWTMiddleware.swift:7-23 | Forwarded iff a bearer token is present and verifies; then the getter gives its payload and every other entry is kept. No header gives 401 "Missing authorization bearer header"; a verifier error, claim failures included, is returned unchanged with nothing stored |
| JwtMiddleware.LatestTokenWins | Sources/JWTMiddleware/JWTMiddleware.swift:14 | A verified token replaces a payload stored earlier in `userInfo` |
| JwtMiddleware.GuardLeavesStoredPayload | Sources/JWTMiddleware/JWTMiddleware.swift:28 | After this middleware, `payload(as:)` reads what it read before |
| JwtMiddleware.Respond | Sources/JWTMiddleware/JWTMiddleware.swift:7-23 | The outcome and new state are `Guard`'s, and the next responder is called once exactly when it forwards |
| JwtMiddleware.ExpiringCheck | Tests/JWTMiddlewareTests/JWTMiddlewareTests.swift:18-21 | A decoding error is passed on. A decoded token whose `exp` is not after now fails the "exp" claim with "expired"; any other decoded token is accepted |
| JwtMiddleware.UnexpiredTokenPasses | Tests/JWTMiddlewareTests/JWTMiddlewareTests.swift:50-61 | An unexpired signed token is let through with its payload stored |
| JwtMiddleware.ExpiredTokenRejected | Tests/JWTMiddlewareTests/JWTMiddlewareTests.swift:63-85 | An expired token is refused with 401 and the reason "exp claim verification failed: expired", and nothing is stored |

## Left out

- Futures and event loops: each middleware is modelled as completing at once.
- The responder chain after a middleware is not modelled; only the state it is handed is recorded, in `nextLog`.
- Cryptography (signatures, JWKS, BCrypt) is left out. The signer, the token service and the password check are function parameters or fields, so their results are arbitrary.
- Route parameter resolution is a function per slug that succeeds or throws. The resolved value and the container argument are not modelled.
- Converting the restriction's path arguments to components (`convertToPathComponents`) is left out; each argument is given as its components.
- `payloadData`'s JSON encode and decode round trip is a conversion function parameter.
- Generic payload, status and model types: the model uses one payload type (integer ID, string status, integer expiry), and one model type with `BasicJWTAuthenticatable`'s default implementations. It does not model a model type that overrides them.
- Decoding a payload stored under a different type than it is read as is left out.
- Expiry is compared in whole seconds; `Date` and floating-point time are left out.
- The reflection behind the username coding key is a field of the model (`usernameProperty`).
- Logging of claim failures in `JWTMiddleware` is left out.
- The table lookups (`find`, `filter(...).first()`) cannot fail in the model. A database error there, which the source passes on as the request's error, is not modelled. BCrypt errors appear as the `Err` results of `passwordMatches`.
- `JwtMiddleware.ResponseStatus` and `ResponseReason` model the framework's error rendering only for the errors this core raises. Release-mode masking of unexpected errors is left out.
- LegacyAuthMiddleware.SameDispatchAsNewer: the older middleware calls a synchronous `authBody(from:)` of the `JWTAuthenticatable` protocol, whose implementation is not part of this model; it is taken to decode the body as `BasicJWTAuthenticatable`'s default does.
- The middlewares' empty initialisers have no state and are not modelled.
- Calls on the request that can throw in the source are taken never to throw: `isAuthenticated`, `authenticate`, `set`, `authenticated`, `requireID` and `make(JWTService.self)`. A consequence not modelled: the body login stores the payload before it authenticates the user, so a throwing `authenticate` would leave the payload stored without an authenticated user; in the model a login writes both or neither.

=== FILE: authenticatable_middleware.dfy ===
/** `JWTAuthenticatableMiddleware`: authenticates the request's model before
    handing it on. The ways are tried in a fixed order: a model already
    authenticated, then credentials in the body, then the payload stored for
    a bearer header. A body that does not decode fails the request before the
    header is looked at; with neither credentials nor a header the request is
    refused with 401. */
module AuthMiddleware {
  import opened Http
  import opened Models
  import opened Requests
  import opened RequestJwt
  import opened BasicAuth

  const NoAuthorizedUser: string := "No authorized user or data to authorize a user was found"

  /** What the middleware does to a request in state `s`, `reason` being the
      401's wording. */
  function Dispatch(model: UserModel, bearer: Option<string>, body: Option<map<string, string>>,
                    reason: string, s: Snapshot): (e: Effect)
    ensures e.outcome.Failed? ==> e.after == s
    ensures e.outcome.Forwarded? ==> e.after.authed.Some?
    ensures e.outcome.Forwarded? && s.authed.None? ==>
              SkelpoPayloadKey in e.after.storage &&
              exists u :: u in model.table && e.after.authed == Some(u)
    ensures s.authed.Some? ==> e == Effect(Forwarded, s)
    ensures s.authed.None? && AuthBody(body, model.usernameProperty).Err? ==>
              e == Effect(Failed(AuthBody(body, model.usernameProperty).error), s)
  {
    if s.authed.Some? then Effect(Forwarded, s)
    else match AuthBody(body, model.usernameProperty)
      case Err(error) => Effect(Failed(error), s)
      case Ok(Some(c)) =>
        (match CredentialLogin(model, c)
         case Err(error) => Effect(Failed(error), s)
         case Ok((payload, user)) => Effect(Forwarded, Login(s, payload, user)))
      case Ok(None) =>
        if bearer.None? then Effect(Failed(Abort(Unauthorized, Some(reason))), s)
        else match StoredPayload(s.storage)
          case Err(error) => Effect(Failed(error), s)
          case Ok(payload) =>
            match PayloadLogin(model, payload)
            case Err(error) => Effect(Failed(error), s)
            case Ok(user) => Effect(Forwarded, Login(s, payload, user))
  }

  /** Credentials in the body are used whether or not a bearer header is
      present. The request goes on exactly when they authenticate, logged in
      as the user they found with the payload issued to it; otherwise the
      login's error (such as the 401 for an unknown user or a wrong
      password) is passed on and nothing changes. */
  lemma BodyBeforeBearer(model: UserModel, bearer: Option<string>, body: Option<map<string, string>>,
                         reason: string, s: Snapshot, c: BasicAuthorization)
    requires s.authed.None? && AuthBody(body, model.usernameProperty) == Ok(Some(c))
    ensures Dispatch(model, bearer, body, reason, s) == Dispatch(model, None, body, reason, s)
    ensures Dispatch(model, bearer, body, reason, s).outcome.Forwarded? <==> CredentialLogin(model, c).Ok?
    ensures CredentialLogin(model, c).Ok? ==>
              Dispatch(model, bearer, body, reason, s) ==
              Effect(Forwarded, Login(s, CredentialLogin(model, c).value.0, CredentialLogin(model, c).value.1))
    ensures CredentialLogin(model, c).Err? ==>
              Dispatch(model, bearer, body, reason, s) == Effect(Failed(CredentialLogin(model, c).error), s)
  {
  }

  /** With a bearer header and no credentials, the stored payload is what
      authenticates: 500 when none is stored, 404 when no user has its ID,
      and otherwise the user with its ID is logged in with that payload. */
  lemma BearerUsesStoredPayload(model: UserModel, token: string, body: Option<map<string, string>>,
                                reason: string, s: Snapshot)
    requires s.authed.None? && AuthBody(body, model.usernameProperty) == Ok(None)
    ensures PayloadKey !in s.storage ==>
              Dispatch(model, Some(token), body, reason, s) == Effect(Failed(NoMiddlewareRegistered), s)
    ensures PayloadKey in s.storage ==>
              (Dispatch(model, Some(token), body, reason, s).outcome.Forwarded? <==>
               exists u :: u in model.table && u.id == s.storage[PayloadKey].id)
    ensures PayloadKey in s.storage && PayloadLogin(model, s.storage[PayloadKey]).Ok? ==>
              Dispatch(model, Some(token), body, reason, s) ==
              Effect(Forwarded, Login(s, s.storage[PayloadKey], PayloadLogin(model, s.storage[PayloadKey]).value))
    ensures PayloadKey in s.storage && PayloadLogin(model, s.storage[PayloadKey]).Err? ==>
              Dispatch(model, Some(token), body, reason, s) == Effect(Failed(UserNotFound), s)
  {
  }

  /** A body that does not decode fails the request with the decoder's
      error, whatever the bearer header: it is never looked at. */
  lemma UndecodableBodyFails(model: UserModel, bearer: Option<string>, reason: string, s: Snapshot)
    requires s.authed.None?
    ensures Dispatch(model, bearer, None, reason, s) == Effect(Failed(UndecodableBody), s)
  {
  }

  /** With neither credentials nor a bearer header the request is refused with 401. */
  lemma NeitherIsUnauthorized(model: UserModel, body: Option<map<string, string>>, reason: string, s: Snapshot)
    requires s.authed.None? && AuthBody(body, model.usernameProperty) == Ok(None)
    ensures Dispatch(model, None, body, reason, s) == Effect(Failed(Abort(Unauthorized, Some(reason))), s)
  {
  }

  /** The dispatch on a request, shared by this middleware and its older copy. */
  method Authenticate(req: Request, model: UserModel, reason: string) returns (r: Outcome)
    modifies req
    ensures var e := Dispatch(model, req.bearer, req.body, reason, old(req.Current()));
            && r == e.outcome
            && req.Current() == e.after
            && req.nextLog == old(req.nextLog) + Handed(e)
  {
    if req.authed.Some? {
      req.Next();
      return Forwarded;
    }
    var body := AuthBody(req.body, model.usernameProperty);
    if body.Err? {
      return Failed(body.error);
    }
    if body.value.Some? {
      var user := AuthenticateBody(req, model, body.value.value);
      if user.Err? {
        return Failed(user.error);
      }
      req.Next();
      return Forwarded;
    } else if req.bearer.Some? {
      var payload := StoredPayload(req.storage);
      if payload.Err? {
        return Failed(payload.error);
      }
      var user := AuthenticatePayload(req, model, payload.value);
      if user.Err? {
        return Failed(user.error);
      }
      req.Next();
      return Forwarded;
    } else {
      return Failed(Abort(Unauthorized, Some(reason)));
    }
  }

  /** `respond(to:chainingTo:)`. */
  method Respond(req: Request, model: UserModel) returns (r: Outcome)
    modifies req
    ensures var e := Dispatch(model, req.bearer, req.body, NoAuthorizedUser, old(req.Current()));
            && r == e.outcome
            && req.Current() == e.after
            && req.nextLog == old(req.nextLog) + Handed(e)
  {
    r := Authenticate(req, model, NoAuthorizedUser);
  }
}

=== FILE: basic_authenticatable.dfy ===
/** `BasicJWTAuthenticatable`'s default implementations: decoding a login
    body, and authenticating a request from a payload (by the payload's ID)
    or from credentials (by username, then password). A successful
    authentication marks the model authenticated and stores the payload
    under "skelpo-payload"; a failed one leaves the request untouched. */
module BasicAuth {
  import opened Http
  import opened Models
  import opened Requests

  /** The coding keys of the `UsernamePassword` body. */
  datatype CodingKey = PasswordKey | UsernameKey

  /** `CodingKeys.stringValue`: "password", and for the username the
      reflected name of the model's `usernameKey` property, "email" when
      reflection finds none. */
  function KeyString(key: CodingKey, usernameProperty: Option<string>): string {
    match key
    case PasswordKey => "password"
    case UsernameKey => if usernameProperty.Some? then usernameProperty.value else "email"
  }

  /** The password is always read from "password"; the username from the
      name of the `usernameKey` property, or "email" when reflection finds
      none. The two keys differ unless that property is itself "password". */
  lemma CodingKeyStrings(usernameProperty: Option<string>)
    ensures KeyString(PasswordKey, usernameProperty) == "password"
    ensures usernameProperty.None? ==> KeyString(UsernameKey, usernameProperty) == "email"
    ensures usernameProperty.Some? ==> KeyString(UsernameKey, usernameProperty) == usernameProperty.value
    ensures KeyString(UsernameKey, usernameProperty) == KeyString(PasswordKey, usernameProperty) <==>
              usernameProperty == Some("password")
  {
  }

  /** The JSON object `UsernamePassword` encodes credentials to. */
  function CredentialFields(c: BasicAuthorization, usernameProperty: Option<string>): map<string, string> {
    map[KeyString(UsernameKey, usernameProperty) := c.username, KeyString(PasswordKey, usernameProperty) := c.password]
  }

  const UndecodableBody: Error := External("the request body cannot be decoded as UsernamePassword")

  /** `authBody(from:)`: the credentials in the body, `None` when either
      field is missing, and the decoder's error when the body is not a JSON
      object. */
  function AuthBody(body: Option<map<string, string>>, usernameProperty: Option<string>)
    : (r: Result<Option<BasicAuthorization>>)
    ensures r.Err? <==> body.None?
    ensures r.Ok? ==> (r.value.Some? <==> KeyString(UsernameKey, usernameProperty) in body.value &&
                                          KeyString(PasswordKey, usernameProperty) in body.value)
    ensures r.Ok? && r.value.Some? ==>
              r.value.value.username == body.value[KeyString(UsernameKey, usernameProperty)] &&
              r.value.value.password == body.value[KeyString(PasswordKey, usernameProperty)]
  {
    match body
    case None => Err(UndecodableBody)
    case Some(fields) =>
      var passwordKey := KeyString(PasswordKey, usernameProperty);
      var usernameKey := KeyString(UsernameKey, usernameProperty);
      if passwordKey in fields && usernameKey in fields then
        Ok(Some(BasicAuthorization(fields[usernameKey], fields[passwordKey])))
      else Ok(None)
  }

  /** Encoding credentials and decoding them back gives them unchanged,
      whenever the username property is not itself called "password". */
  lemma AuthBodyRoundTrip(c: BasicAuthorization, usernameProperty: Option<string>)
    requires usernameProperty != Some("password")
    ensures AuthBody(Some(CredentialFields(c, usernameProperty)), usernameProperty) == Ok(Some(c))
  {
  }

  const UserNotFound: Error := Abort(NotFound, Some("No user found with the ID from the access token"))

  /** The one error for an unknown username and for a wrong password. */
  const IncorrectCredentials: Error := Abort(Unauthorized, Some("Username or password is incorrect"))

  /** The lookup behind `authenticate(from: Payload, on:)`: the user with the payload's ID, or 404. */
  function PayloadLogin(model: UserModel, payload: Payload): (r: Result<User>)
    ensures r.Ok? ==> r.value in model.table && r.value.id == payload.id
    ensures r.Err? <==> forall u :: u in model.table ==> u.id != payload.id
    ensures r.Err? ==> r.error == UserNotFound
  {
    match First(model.table, (u: User) => u.id == payload.id)
    case None => Err(UserNotFound)
    case Some(user) => Ok(user)
  }

  /** The user row `query.filter(usernameKey == username).first()` returns. */
  function UserNamed(table: seq<User>, username: string): (r: Option<User>)
    ensures r.None? <==> forall u :: u in table ==> u.username != username
    ensures r.Some? ==> r.value in table && r.value.username == username
    ensures r.Some? ==> exists i :: 0 <= i < |table| && table[i] == r.value &&
                                    forall j :: 0 <= j < i ==> table[j].username != username
  {
    First(table, (u: User) => u.username == username)
  }

  /** The checks behind `authenticate(from: AuthBody, on:)`: the first user
      with the username, whose stored hash the password matches, and the
      payload issued to that user. */
  function CredentialLogin(model: UserModel, c: BasicAuthorization): (r: Result<(Payload, User)>)
    ensures r.Ok? ==> r.value.1 in model.table && r.value.1.username == c.username &&
                      model.passwordMatches(c.password, r.value.1.passwordHash) == Ok(true) &&
                      model.accessToken(r.value.1) == Ok(r.value.0)
    ensures UserNamed(model.table, c.username).None? ==> r == Err(IncorrectCredentials)
    ensures UserNamed(model.table, c.username).Some? ==>
              var found := UserNamed(model.table, c.username).value;
              var matches := model.passwordMatches(c.password, found.passwordHash);
              && (matches.Err? ==> r == Err(matches.error))
              && (matches == Ok(false) ==> r == Err(IncorrectCredentials))
              && (matches == Ok(true) && model.accessToken(found).Err? ==> r == Err(model.accessToken(found).error))
              && (matches == Ok(true) && model.accessToken(found).Ok? ==> r == Ok((model.accessToken(found).value, found)))
  {
    match UserNamed(model.table, c.username)
    case None => Err(IncorrectCredentials)
    case Some(found) =>
      var matches :- model.passwordMatches(c.password, found.passwordHash);
      if !matches then Err(IncorrectCredentials)
      else
        var payload :- model.accessToken(found);
        Ok((payload, found))
  }

  /** Correct credentials log in: when the first user with the username has
      a hash the password matches and is issued a payload, the login gives
      that user and payload. */
  lemma CorrectCredentialsLogIn(model: UserModel, c: BasicAuthorization, user: User, payload: Payload)
    requires UserNamed(model.table, c.username) == Some(user)
    requires model.passwordMatches(c.password, user.passwordHash) == Ok(true)
    requires model.accessToken(user) == Ok(payload)
    ensures CredentialLogin(model, c) == Ok((payload, user))
  {
  }

  /** Anti-enumeration: an unknown username, and a known one whose first user
      rejects the password, fail with the very same error. */
  lemma UnknownUserLooksLikeWrongPassword(model: UserModel, unknown: BasicAuthorization, wrong: BasicAuthorization)
    requires forall u :: u in model.table ==> u.username != unknown.username
    requires UserNamed(model.table, wrong.username).Some?
    requires model.passwordMatches(wrong.password, UserNamed(model.table, wrong.username).value.passwordHash) == Ok(false)
    ensures CredentialLogin(model, unknown) == CredentialLogin(model, wrong) == Err(IncorrectCredentials)
  {
  }

  /** `authenticate(from: Payload, on:)`. */
  method AuthenticatePayload(req: Request, model: UserModel, payload: Payload) returns (r: Result<User>)
    modifies req
    ensures r == PayloadLogin(model, payload)
    ensures req.Current() == if r.Ok? then Login(old(req.Current()), payload, r.value) else old(req.Current())
    ensures req.nextLog == old(req.nextLog)
  {
    r := PayloadLogin(model, payload);
    if r.Ok? {
      req.authed := Some(r.value);
      req.storage := req.storage[SkelpoPayloadKey := payload];
    }
  }

  /** `authenticate(from: AuthBody, on:)`: nothing is written unless every check passes. */
  method AuthenticateBody(req: Request, model: UserModel, c: BasicAuthorization) returns (r: Result<User>)
    modifies req
    ensures var login := CredentialLogin(model, c);
            && r == (if login.Ok? then Ok(login.value.1) else Err(login.error))
            && req.Current() == if login.Ok? then Login(old(req.Current()), login.value.0, login.value.1)
                                else old(req.Current())
    ensures req.nextLog == old(req.nextLog)
  {
    var login := CredentialLogin(model, c);
    if login.Err? {
      return Err(login.error);
    }
    var (payload, found) := login.value;
    req.storage := req.storage[SkelpoPayloadKey := payload];
    req.authed := Some(found);
    r := Ok(found);
  }
}

=== FILE: http.dfy ===
/** Values shared by every stage of the request pipeline: optional and
    failable values, HTTP methods and statuses, the errors a stage raises,
    and what a stage does with a request (hand it on, or fail). */
module Http {

  datatype Option<+T> = None | Some(value: T)

  /** A value or the error that was thrown instead of it. */
  datatype Result<+T> = Ok(value: T) | Err(error: Error) {
    predicate IsFailure() { Err? }
    function PropagateFailure<U>(): Result<U> requires Err? { Err(error) }
    function Extract(): T requires Ok? { value }
  }

  datatype HttpMethod = GET | POST | PUT | PATCH | DELETE | HEAD | OPTIONS | Other(name: string)

  const BadRequest: nat := 400
  const Unauthorized: nat := 401
  const Forbidden: nat := 403
  const NotFound: nat := 404
  const InternalServerError: nat := 500

  /** The errors this core raises or passes on. */
  datatype Error =
      /** The web framework's `Abort`; a `None` reason stands for the status's standard phrase. */
    | Abort(status: nat, reason: Option<string>)
      /** The token library's `claimVerificationFailure(name:reason:)`. */
    | ClaimVerificationFailure(claim: string, failure: string)
      /** Any error raised by a collaborator outside this core (a parameter
          resolver, the body decoder, the database, the signer). */
    | External(description: string)

  /** What a middleware stage did: it called the next responder exactly once
      and returned that response, or it failed without calling it. */
  datatype Outcome = Forwarded | Failed(error: Error)
}

=== FILE: jwt_middleware.dfy ===
/** The newest `JWTMiddleware<T>`: verifies the bearer token and stores its
    payload in the request's `userInfo` under "jwt_payload", and the
    `loggedIn` / `payload` accessors on that entry. */
module JwtMiddleware {
  import opened Http
  import opened Models
  import opened Requests
  import opened RequestJwt

  const MissingAuthorization: Error := Abort(Unauthorized, Some("Missing authorization bearer header"))

  /** `loggedIn`: a payload is stored under "jwt_payload". */
  predicate LoggedIn(storage: map<string, Payload>) {
    UserInfoPayloadKey in storage
  }

  /** The `payload` getter, which force-casts: callers must be logged in. */
  function CurrentPayload(storage: map<string, Payload>): (p: Payload)
    requires LoggedIn(storage)
    ensures (UserInfoPayloadKey, p) in storage.Items
  {
    storage[UserInfoPayloadKey]
  }

  /** The `payload` setter: afterwards the request is logged in with `p`,
      and no other entry and not the authenticated model change. */
  method SetPayload(req: Request, p: Payload)
    modifies req
    ensures req.storage == old(req.storage)[UserInfoPayloadKey := p]
    ensures LoggedIn(req.storage) && CurrentPayload(req.storage) == p
    ensures req.authed == old(req.authed) && req.nextLog == old(req.nextLog)
  {
    req.storage := req.storage[UserInfoPayloadKey := p];
  }

  /** `respond(to:chainingTo:)`, `verify` standing for `request.jwt.verify`
      (signature check, decoding, and the payload's own `verify(using:)`).
      Any error it throws is passed on unchanged. */
  function Guard(bearer: Option<string>, verify: string -> Result<Payload>, s: Snapshot): (e: Effect)
    ensures e.outcome.Forwarded? <==> bearer.Some? && verify(bearer.value).Ok?
    ensures bearer.None? ==> e == Effect(Failed(MissingAuthorization), s)
    ensures bearer.Some? && verify(bearer.value).Err? ==> e == Effect(Failed(verify(bearer.value).error), s)
    ensures e.outcome.Forwarded? ==>
              LoggedIn(e.after.storage) && CurrentPayload(e.after.storage) == verify(bearer.value).value &&
              e.after.authed == s.authed &&
              forall k :: k != UserInfoPayloadKey ==>
                (k in e.after.storage <==> k in s.storage) &&
                (k in s.storage ==> e.after.storage[k] == s.storage[k])
  {
    match bearer
    case None => Effect(Failed(MissingAuthorization), s)
    case Some(token) =>
      match verify(token)
      case Err(error) => Effect(Failed(error), s)
      case Ok(payload) => Effect(Forwarded, Snapshot(s.storage[UserInfoPayloadKey := payload], s.authed))
  }

  /** A fresh request is not logged in; this middleware leaves it logged in
      whenever it forwards, and a failure leaves `loggedIn` as it was. */
  lemma LoggedInAfterGuard(bearer: Option<string>, verify: string -> Result<Payload>, s: Snapshot)
    ensures !LoggedIn(map[])
    ensures Guard(bearer, verify, s).outcome.Forwarded? ==> LoggedIn(Guard(bearer, verify, s).after.storage)
    ensures Guard(bearer, verify, s).outcome.Failed? ==>
              (LoggedIn(Guard(bearer, verify, s).after.storage) <==> LoggedIn(s.storage))
  {
  }

  /** A verified token replaces whatever payload an earlier stage stored in `userInfo`. */
  lemma LatestTokenWins(token: string, verify: string -> Result<Payload>, s: Snapshot)
    requires LoggedIn(s.storage) && verify(token).Ok?
    ensures CurrentPayload(Guard(Some(token), verify, s).after.storage) == verify(token).value
  {
  }

  /** This middleware stores its payload apart from "skelpo-payload":
      `payload(as:)` reads after it exactly what it read before. */
  lemma GuardLeavesStoredPayload(bearer: Option<string>, verify: string -> Result<Payload>, s: Snapshot)
    ensures StoredPayload(Guard(bearer, verify, s).after.storage) == StoredPayload(s.storage)
  {
  }

  /** `respond(to:chainingTo:)` on a request. */
  method Respond(req: Request, verify: string -> Result<Payload>) returns (r: Outcome)
    modifies req
    ensures var e := Guard(req.bearer, verify, old(req.Current()));
            && r == e.outcome
            && req.Current() == e.after
            && req.nextLog == old(req.nextLog) + Handed(e)
  {
    if req.bearer.None? {
      return Failed(MissingAuthorization);
    }
    var payload := verify(req.bearer.value);
    if payload.Err? {
      return Failed(payload.error);
    }
    SetPayload(req, payload.value);
    req.Next();
    r := Forwarded;
  }

  /** The token check of a payload whose `verify(using:)` only checks its
      expiration claim, as the package's test payload does: `decode` is the
      signature check and decoding, `now` the current time. A token expires
      at its `exp` instant. */
  function ExpiringCheck(decode: string -> Result<Payload>, now: int, token: string): (r: Result<Payload>)
    ensures decode(token).Err? ==> r == decode(token)
    ensures decode(token).Ok? ==>
              if decode(token).value.exp <= now then r == Err(ClaimVerificationFailure("exp", "expired"))
              else r == decode(token)
  {
    var payload :- decode(token);
    if payload.exp <= now then Err(ClaimVerificationFailure("exp", "expired")) else Ok(payload)
  }

  /** The standard reason phrase of the statuses this core raises. */
  function ReasonPhrase(status: nat): string {
    if status == 400 then "Bad Request"
    else if status == 401 then "Unauthorized"
    else if status == 403 then "Forbidden"
    else if status == 404 then "Not Found"
    else if status == 500 then "Internal Server Error"
    else ""
  }

  /** The status of the error response an error becomes: token-claim
      failures are 401, collaborators' errors 500. */
  function ResponseStatus(e: Error): nat {
    match e
    case Abort(status, _) => status
    case ClaimVerificationFailure(_, _) => Unauthorized
    case External(_) => InternalServerError
  }

  /** The `reason` of the error response an error becomes. */
  function ResponseReason(e: Error): string {
    match e
    case Abort(status, reason) => if reason.Some? then reason.value else ReasonPhrase(status)
    case ClaimVerificationFailure(claim, failure) => claim + " claim verification failed: " + failure
    case External(description) => description
  }

  /** A signed token that expires after `now` gets the request through, with its payload stored. */
  lemma UnexpiredTokenPasses(decode: string -> Result<Payload>, now: int, token: string, s: Snapshot)
    requires decode(token).Ok? && decode(token).value.exp > now
    ensures var e := Guard(Some(token), t => ExpiringCheck(decode, now, t), s);
            e.outcome == Forwarded && CurrentPayload(e.after.storage) == decode(token).value
  {
  }

  /** A signed token that has expired is refused with 401 and the reason
      "exp claim verification failed: expired", and nothing is stored. */
  lemma ExpiredTokenRejected(decode: string -> Result<Payload>, now: int, token: string, s: Snapshot)
    requires decode(token).Ok? && decode(token).value.exp <= now
    ensures var e := Guard(Some(token), t => ExpiringCheck(decode, now, t), s);
            e.after == s && e.outcome.Failed? &&
            ResponseStatus(e.outcome.error) == 401 &&
            ResponseReason(e.outcome.error) == "exp claim verification failed: expired"
  {
    var error := ExpiredTokenFails(decode, now, token, s);
    ExpiredReason();
  }

  /** How an expired token's claim failure is rendered. */
  lemma ExpiredReason()
    ensures ResponseStatus(ClaimVerificationFailure("exp", "expired")) == 401
    ensures ResponseReason(ClaimVerificationFailure("exp", "expired")) == "exp claim verification failed: expired"
  {
    var prefix := "exp" + " claim verification failed: ";
    assert prefix == "exp claim verification failed: ";
    assert prefix + "expired" == "exp claim verification failed: expired";
  }

  /** The guard's effect on an expired token: the claim failure, nothing changed. */
  lemma ExpiredTokenFails(decode: string -> Result<Payload>, now: int, token: string, s: Snapshot)
    returns (error: Error)
    requires decode(token).Ok? && decode(token).value.exp <= now
    ensures error == ClaimVerificationFailure("exp", "expired")
    ensures Guard(Some(token), t => ExpiringCheck(decode, now, t), s) == Effect(Failed(error), s)
  {
    error := ClaimVerificationFailure("exp", "expired");
    var check := t => ExpiringCheck(decode, now, t);
    assert check(token) == Err(error);
  }
}

=== FILE: legacy_authenticatable_middleware.dfy ===
/** The older, synchronous `JWTAuthenticatableMiddlware`: the same dispatch
    as `JWTAuthenticatableMiddleware`, whose 401 reads differently. */
module LegacyAuthMiddleware {
  import opened Http
  import opened Models
  import opened Requests
  import AuthMiddleware

  const NoAuthorizedUser: string := "No authorized user to data to authorize a user was found"

  /** `respond(to:chainingTo:)`. */
  method Respond(req: Request, model: UserModel) returns (r: Outcome)
    modifies req
    ensures var e := AuthMiddleware.Dispatch(model, req.bearer, req.body, NoAuthorizedUser, old(req.Current()));
            && r == e.outcome
            && req.Current() == e.after
            && req.nextLog == old(req.nextLog) + Handed(e)
  {
    r := AuthMiddleware.Authenticate(req, model, NoAuthorizedUser);
  }

  /** Both versions decide alike; only the wording of the final 401 differs. */
  lemma SameDispatchAsNewer(model: UserModel, bearer: Option<string>, body: Option<map<string, string>>, s: Snapshot)
    ensures var legacy := AuthMiddleware.Dispatch(model, bearer, body, NoAuthorizedUser, s);
            var current := AuthMiddleware.Dispatch(model, bearer, body, AuthMiddleware.NoAuthorizedUser, s);
            legacy.after == current.after && legacy.outcome.Forwarded? == current.outcome.Forwarded? &&
            (legacy.outcome != current.outcome ==>
               legacy.outcome == Failed(Abort(Unauthorized, Some(NoAuthorizedUser))) &&
               current.outcome == Failed(Abort(Unauthorized, Some(AuthMiddleware.NoAuthorizedUser))))
  {
  }
}

=== FILE: legacy_verification.dfy ===
/** The older `JWTVerificationMiddleware<Payload>`, which despite its name
    does what the newer `JWTStorageMiddleware` does: it re-stores the
    payload a previous stage stored, and verifies nothing. */
module LegacyVerification {
  import opened Http
  import opened Requests
  import Verification

  /** `respond(to:chainingTo:)`. */
  method Respond(req: Request) returns (r: Outcome)
    modifies req
    ensures var e := Verification.StorageStep(old(req.Current()));
            && r == e.outcome
            && req.Current() == e.after
            && req.nextLog == old(req.nextLog) + Handed(e)
  {
    r := Verification.StorageRespond(req);
  }
}

=== FILE: models.dfy ===
/** The entities the middlewares talk about: the JWT payload, the stored user
    model, the credentials of a login body, and the static capabilities of
    the authenticatable model type (its routing slug, ID parser, table,
    password check and token issuing), which stand in for the database,
    BCrypt and the model's own code. */
module Models {
  import opened Http

  /** The model's (and the payload's) ID type. */
  type Id = int

  /** A user's permission status. */
  type Status = string

  /** A permissioned JWT payload: the user's ID, status and expiry (seconds since the epoch). */
  datatype Payload = Payload(id: Id, status: Status, exp: int)

  /** A stored user row. */
  datatype User = User(id: Id, username: string, passwordHash: string)

  /** The credentials decoded from a login body. */
  datatype BasicAuthorization = BasicAuthorization(username: string, password: string)

  /** The static side of the authenticatable model type. */
  datatype UserModel = UserModel(
    /** the type's name, used in error messages */
    name: string,
    /** the slug under which the type is a route parameter */
    routingSlug: string,
    /** `ID.init(_: String)` */
    parseId: string -> Option<Id>,
    /** the model's database table, in query order */
    table: seq<User>,
    /** the first path element of the reflected `usernameKey` property, if reflection finds one */
    usernameProperty: Option<string>,
    /** `BCrypt.verify(password, created: hash)` */
    passwordMatches: (string, string) -> Result<bool>,
    /** `accessToken(on:)`: the payload issued to a user on login */
    accessToken: User -> Result<Payload>)

  /** The first row of `table` that `matches`, as a database `first()` query returns it. */
  function First(table: seq<User>, matches: User -> bool): (r: Option<User>)
    ensures r.None? <==> forall u :: u in table ==> !matches(u)
    ensures r.Some? ==> exists i :: 0 <= i < |table| && table[i] == r.value && matches(r.value) &&
                                    forall j :: 0 <= j < i ==> !matches(table[j])
  {
    if table == [] then None
    else if matches(table[0]) then Some(table[0])
    else First(table[1..], matches)
  }
}

=== FILE: permissions.dfy ===
/** `PermissionsMiddleware`: lets a request through only when a payload is
    stored and its status is in the allow-list; a missing payload and a
    denied one are reported the same way, with the configured status. */
module Permissions {
  import opened Http
  import opened Models
  import opened Requests
  import opened RequestJwt

  datatype PermissionsMiddleware = PermissionsMiddleware(statuses: seq<Status>, failureError: nat)

  /** `init(allowed:failureError:)`; the failure status defaults to 404. */
  function NewPermissionsMiddleware(statuses: seq<Status>, failureError: nat := NotFound): (mw: PermissionsMiddleware)
    ensures mw.statuses == statuses && mw.failureError == failureError
  {
    PermissionsMiddleware(statuses, failureError)
  }

  lemma DefaultFailureIsNotFound(statuses: seq<Status>)
    ensures NewPermissionsMiddleware(statuses).failureError == 404
  {
  }

  /** `respond(to:chainingTo:)`, as the decision whether to call the next responder. */
  function Gate(mw: PermissionsMiddleware, s: Snapshot): (r: Outcome)
    ensures r.Forwarded? <==> PayloadKey in s.storage && s.storage[PayloadKey].status in mw.statuses
    ensures r.Failed? ==> r.error == Abort(mw.failureError, None)
  {
    match StoredPayload(s.storage)
    case Err(_) => Failed(Abort(mw.failureError, None))
    case Ok(payload) =>
      if payload.status in mw.statuses then Forwarded else Failed(Abort(mw.failureError, None))
  }

  /** A request with no payload cannot be told apart from one whose status is denied. */
  lemma MissingLooksDenied(mw: PermissionsMiddleware, missing: Snapshot, denied: Snapshot)
    requires PayloadKey !in missing.storage
    requires PayloadKey in denied.storage && denied.storage[PayloadKey].status !in mw.statuses
    ensures Gate(mw, missing) == Gate(mw, denied) == Failed(Abort(mw.failureError, None))
  {
  }

  /** With an empty allow-list every request is rejected. */
  lemma EmptyAllowListRejects(mw: PermissionsMiddleware, s: Snapshot)
    requires mw.statuses == []
    ensures Gate(mw, s) == Failed(Abort(mw.failureError, None))
  {
  }

  /** `respond(to:chainingTo:)` on a request: changes nothing, and calls the
      next responder once when the gate admits the request, never otherwise. */
  method Respond(mw: PermissionsMiddleware, req: Request) returns (r: Outcome)
    modifies req
    ensures r == Gate(mw, old(req.Current()))
    ensures req.Current() == old(req.Current())
    ensures req.nextLog == old(req.nextLog) + Handed(Effect(r, old(req.Current())))
  {
    r := Gate(mw, req.Current());
    if r.Forwarded? {
      req.Next();
    }
  }
}

=== FILE: request_jwt.dfy ===
/** Read-only accessors a request offers the middlewares: the bearer token
    and the payload a previous stage stored. Being functions of the
    request's header and storage, none of them can change the request. */
module RequestJwt {
  import opened Http
  import opened Models
  import opened Requests

  /** The error raised when no payload has been stored for the request. */
  const NoMiddlewareRegistered: Error :=
    Abort(InternalServerError, Some("No JWTMiddleware has been registered for the current route."))

  /** `accessToken()`: the bearer token, or 401 when the header is missing. */
  function AccessToken(bearer: Option<string>): (r: Result<string>)
    ensures r.Ok? <==> bearer.Some?
    ensures r.Ok? ==> r.value == bearer.value
    ensures r.Err? ==> r.error == Abort(Unauthorized, None)
  {
    match bearer
    case Some(token) => Ok(token)
    case None => Err(Abort(Unauthorized, None))
  }

  /** `payload(as:)`: the payload stored under the payload key, or 500. */
  function StoredPayload(storage: map<string, Payload>): (r: Result<Payload>)
    ensures r.Ok? <==> PayloadKey in storage
    ensures r.Ok? ==> r.value == storage[PayloadKey]
    ensures r.Err? ==> r.error == NoMiddlewareRegistered
  {
    if PayloadKey in storage then Ok(storage[PayloadKey]) else Err(NoMiddlewareRegistered)
  }

  /** `payloadData(storedAs:convertedTo:)`: the stored payload re-decoded as
      another type by `convert` (the JSON encode/decode round trip), or the
      same 500 when nothing is stored. */
  function PayloadData<T>(storage: map<string, Payload>, convert: Payload -> Result<T>): (r: Result<T>)
    ensures PayloadKey !in storage ==> r == Err(NoMiddlewareRegistered)
    ensures PayloadKey in storage ==> r == convert(storage[PayloadKey])
  {
    var payload :- StoredPayload(storage);
    convert(payload)
  }

  /** What a login stores is what `payload(as:)` reads back, whatever was stored before. */
  lemma LoginReadsBack<T>(s: Snapshot, payload: Payload, user: User, convert: Payload -> Result<T>)
    ensures StoredPayload(Login(s, payload, user).storage) == Ok(payload)
    ensures PayloadData(Login(s, payload, user).storage, convert) == convert(payload)
  {
  }
}

=== FILE: requests.dfy ===
/** The request as the middlewares see it: immutable method, path, bearer
    header and body, plus the request-scoped state they change (the storage
    map holding payloads, the authenticated model) and a log of every call
    to the next responder. */
module Requests {
  import opened Http
  import opened Models

  /** The key under which authentication stores the payload. */
  const SkelpoPayloadKey: string := "skelpo-payload"

  /** The storage key behind `.payloadKey`, read by `payload(as:)`. Its
      definition is not part of this model; it is taken to be the key the
      authenticators write, "skelpo-payload". */
  const PayloadKey: string := SkelpoPayloadKey

  /** The `userInfo` key under which the newer `JWTMiddleware` stores the payload. */
  const UserInfoPayloadKey: string := "jwt_payload"

  /** The request-scoped state a stage may change. */
  datatype Snapshot = Snapshot(storage: map<string, Payload>, authed: Option<User>)

  /** What a stage does: its outcome and the state it leaves (and, when it
      forwards, hands to the next responder). */
  datatype Effect = Effect(outcome: Outcome, after: Snapshot)

  /** The states the next responder sees when a stage has this effect. */
  function Handed(e: Effect): (log: seq<Snapshot>)
    ensures |log| <= 1
    ensures |log| == 1 <==> e.outcome.Forwarded?
  {
    if e.outcome.Forwarded? then [e.after] else []
  }

  /** State after a successful login: the model is authenticated and its
      payload stored under "skelpo-payload". */
  function Login(s: Snapshot, payload: Payload, user: User): (t: Snapshot)
    ensures t.authed == Some(user)
    ensures SkelpoPayloadKey in t.storage && t.storage[SkelpoPayloadKey] == payload
    ensures forall k :: k != SkelpoPayloadKey ==> (k in t.storage <==> k in s.storage)
    ensures forall k :: k in s.storage && k != SkelpoPayloadKey ==> t.storage[k] == s.storage[k]
  {
    Snapshot(s.storage[SkelpoPayloadKey := payload], Some(user))
  }

  class Request {
    const verb: HttpMethod
    /** The URL's path components; the first is always "/". */
    const pathComponents: seq<string>
    /** The token of the `Authorization: Bearer ...` header, if present. */
    const bearer: Option<string>
    /** The body as a JSON object of string fields, or `None` if it cannot be decoded. */
    const body: Option<map<string, string>>
    var storage: map<string, Payload>
    var authed: Option<User>
    /** The state at each call of the next responder, oldest first. */
    var nextLog: seq<Snapshot>

    constructor (verb: HttpMethod, pathComponents: seq<string>, bearer: Option<string>,
                 body: Option<map<string, string>>)
      ensures this.verb == verb && this.pathComponents == pathComponents
      ensures this.bearer == bearer && this.body == body
      ensures storage == map[] && authed == None && nextLog == []
    {
      this.verb := verb;
      this.pathComponents := pathComponents;
      this.bearer := bearer;
      this.body := body;
      storage := map[];
      authed := None;
      nextLog := [];
    }

    function Current(): Snapshot
      reads this
    {
      Snapshot(storage, authed)
    }

    /** Calls the next responder, which sees the current state. */
    method Next()
      modifies this
      ensures Current() == old(Current())
      ensures nextLog == old(nextLog) + [old(Current())]
    {
      nextLog := nextLog + [Current()];
    }
  }
}

=== FILE: route_restrictions.dfy ===
/** The route-restriction engine (`RouteRestrictionMiddleware`): a request
    is matched, segment by segment, against each restriction's path pattern
    and method; when none matches the request passes untouched (fail-open);
    when some match, the stored payload's status must be allowed by one of
    them, or its ID must be one the request is entitled to by path or by
    authentication, and any failure there collapses to one configured status. */
module RouteRestrictions {
  import opened Http
  import opened Models
  import opened Requests
  import opened RequestJwt

  /** One component of a route pattern. */
  datatype PathComponent = Constant(value: string) | Parameter(slug: string) | Anything | Catchall

  /** What a parameter type's resolver makes of a path element; the resolved
      value itself is discarded by the matcher. */
  datatype Resolution = Resolved | Unresolvable(error: Error)

  type Resolver = string -> Resolution

  /** Resolvers by routing slug. */
  type Parameters = map<string, Resolver>

  /** A request must match `path` and, when given, `verb`; `allowed` are the
      statuses admitted to the routes it matches. */
  datatype RouteRestriction = RouteRestriction(verb: Option<HttpMethod>, path: seq<PathComponent>, allowed: seq<Status>)

  /** The routing slugs of the built-in parameter types: String, Int, Int8 ...
      Int64, UInt, UInt8 ... UInt64, Float, Double and UUID. */
  const DefaultSlugs: set<string> :=
    {"string", "int", "int8", "int16", "int32", "int64",
     "uint", "uint8", "uint16", "uint32", "uint64", "float", "double", "uuid"}

  datatype RouteRestrictionMiddleware =
    RouteRestrictionMiddleware(restrictions: seq<RouteRestriction>, failureError: nat, parameters: Parameters)

  function MissingResolver(slug: string): Error {
    Abort(InternalServerError, Some("No registed parameter type found for slug '" + slug + "'"))
  }

  function UnparsableId(typeName: string, element: string): Error {
    Abort(BadRequest, Some("Unable to create " + typeName + " ID from parameter '" + element + "'"))
  }

  // ---------------------------------------------------------------------------
  // Construction

  /** The components of the pattern arguments, in order. */
  function Join(parts: seq<seq<PathComponent>>): (r: seq<PathComponent>)
    ensures forall c :: c in r <==> exists i :: 0 <= i < |parts| && c in parts[i]
  {
    if parts == [] then []
    else
      var rest := Join(parts[1..]);
      assert forall i :: 1 <= i < |parts| ==> parts[i] == parts[1..][i - 1];
      parts[0] + rest
  }

  /** Joining concatenates: the components of `a` come first, in their order, then those of `b`. */
  lemma {:induction false} JoinAppend(a: seq<seq<PathComponent>>, b: seq<seq<PathComponent>>)
    ensures Join(a + b) == Join(a) + Join(b)
  {
    if a != [] {
      assert (a + b)[1..] == a[1..] + b;
      JoinAppend(a[1..], b);
    } else {
      assert a + b == b;
    }
  }

  /** One argument joins to its own components. */
  lemma JoinOne(part: seq<PathComponent>)
    ensures Join([part]) == part
  {
    assert [part][1..] == [];
  }

  /** Each argument's components stand, in order, right after those of the
      arguments before it. */
  lemma JoinAt(parts: seq<seq<PathComponent>>)
    ensures forall i :: 0 <= i < |parts| ==> Join(parts) == Join(parts[..i]) + parts[i] + Join(parts[i + 1..])
  {
    forall i | 0 <= i < |parts|
      ensures Join(parts) == Join(parts[..i]) + parts[i] + Join(parts[i + 1..])
    {
      JoinSplit(parts, i);
    }
  }

  /** `JoinAt` at one argument. */
  lemma JoinSplit(parts: seq<seq<PathComponent>>, i: int)
    requires 0 <= i < |parts|
    ensures Join(parts) == Join(parts[..i]) + parts[i] + Join(parts[i + 1..])
  {
    var rest := parts[i..];
    assert parts[..i] + rest == parts;
    JoinAppend(parts[..i], rest);
    assert rest[0] == parts[i] && rest[1..] == parts[i + 1..];
    assert Join(rest) == parts[i] + Join(parts[i + 1..]);
  }

  /** `RouteRestriction.init`: the path is the arguments' components, concatenated in order. */
  function NewRestriction(verb: Option<HttpMethod>, parts: seq<seq<PathComponent>>, allowed: seq<Status>): (r: RouteRestriction)
    ensures r.verb == verb && r.allowed == allowed
    ensures forall c :: c in r.path <==> exists i :: 0 <= i < |parts| && c in parts[i]
    ensures forall i :: 0 <= i < |parts| ==> r.path == Join(parts[..i]) + parts[i] + Join(parts[i + 1..])
    ensures (forall i :: 0 <= i < |parts| ==> |parts[i]| == 1) ==>
              |r.path| == |parts| && forall i :: 0 <= i < |parts| ==> r.path[i] == parts[i][0]
  {
    JoinAt(parts);
    JoinSingletons(parts);
    RouteRestriction(verb, Join(parts), allowed)
  }

  lemma {:induction false} JoinSingletons(parts: seq<seq<PathComponent>>)
    ensures (forall i :: 0 <= i < |parts| ==> |parts[i]| == 1) ==>
              |Join(parts)| == |parts| && forall i :: 0 <= i < |parts| ==> Join(parts)[i] == parts[i][0]
  {
    if parts != [] && forall i :: 0 <= i < |parts| ==> |parts[i]| == 1 {
      assert forall i :: 0 <= i < |parts[1..]| ==> |parts[1..][i]| == 1 by {
        forall i | 0 <= i < |parts[1..]| ensures |parts[1..][i]| == 1 { assert parts[1..][i] == parts[i + 1]; }
      }
      JoinSingletons(parts[1..]);
    }
  }

  /** The resolver table: the caller's resolvers merged over the defaults,
      the caller's winning on a shared slug. */
  function MergeParameters(custom: Parameters, builtin: string -> Resolver): (r: Parameters)
    ensures r.Keys == custom.Keys + DefaultSlugs
    ensures forall slug :: slug in custom ==> r[slug] == custom[slug]
    ensures forall slug :: slug in DefaultSlugs && slug !in custom ==> r[slug] == builtin(slug)
  {
    (map slug | slug in DefaultSlugs :: builtin(slug)) + custom
  }

  /** `RouteRestrictionMiddleware.init`; the failure status defaults to 404. */
  function NewRouteRestrictionMiddleware(restrictions: seq<RouteRestriction>, custom: Parameters,
                                         builtin: string -> Resolver, failureError: nat := NotFound)
    : (mw: RouteRestrictionMiddleware)
    ensures mw.restrictions == restrictions && mw.failureError == failureError
    ensures DefaultSlugs <= mw.parameters.Keys
    ensures forall slug :: slug in custom ==> slug in mw.parameters && mw.parameters[slug] == custom[slug]
  {
    RouteRestrictionMiddleware(restrictions, failureError, MergeParameters(custom, builtin))
  }

  lemma DefaultFailureIsNotFound(restrictions: seq<RouteRestriction>, custom: Parameters, builtin: string -> Resolver)
    ensures NewRouteRestrictionMiddleware(restrictions, custom, builtin).failureError == 404
  {
  }

  // ---------------------------------------------------------------------------
  // Matching a path

  /** `compare(components:to:parameters:on:)`: walks the pattern and the path
      side by side, as far as the shorter of the two goes. */
  function Compare(components: seq<PathComponent>, path: seq<string>, parameters: Parameters): (r: Result<bool>)
    ensures r == Ok(false) ==>
      exists i :: 0 <= i < |components| && i < |path| && components[i].Constant? && components[i].value != path[i]
    ensures r.Err? ==>
      exists i :: 0 <= i < |components| && i < |path| && components[i].Parameter?
  {
    if components == [] || path == [] then Ok(true)
    else
      match components[0]
      case Catchall => Ok(true)
      case Anything => Compare(components[1..], path[1..], parameters)
      case Constant(value) =>
        if value == path[0] then Compare(components[1..], path[1..], parameters) else Ok(false)
      case Parameter(slug) =>
        if slug !in parameters then Err(MissingResolver(slug))
        else match parameters[slug](path[0])
          case Unresolvable(e) => Err(e)
          case Resolved => Compare(components[1..], path[1..], parameters)
  }

  /** A component lets the walk go on past `element`. */
  ghost predicate Continues(c: PathComponent, element: string, parameters: Parameters) {
    match c
    case Anything => true
    case Constant(value) => value == element
    case Parameter(slug) => slug in parameters && parameters[slug](element).Resolved?
    case Catchall => false
  }

  /** The answer given at the first component that does not let the walk go on. */
  ghost function Stop(c: PathComponent, element: string, parameters: Parameters): Result<bool> {
    match c
    case Catchall => Ok(true)
    case Constant(_) => Ok(false)
    case Parameter(slug) =>
      if slug !in parameters then Err(MissingResolver(slug))
      else if parameters[slug](element).Unresolvable? then Err(parameters[slug](element).error)
      else Ok(true)
    case Anything => Ok(true)
  }

  /** When every overlapping position lets the walk go on, the path matches,
      whatever either side holds beyond the overlap. */
  lemma {:induction false} CompareAllContinue(components: seq<PathComponent>, path: seq<string>, parameters: Parameters)
    requires forall i :: 0 <= i < |components| && i < |path| ==> Continues(components[i], path[i], parameters)
    ensures Compare(components, path, parameters) == Ok(true)
  {
    if components != [] && path != [] {
      assert Continues(components[0], path[0], parameters);
      assert forall i :: 0 <= i < |components[1..]| && i < |path[1..]| ==>
               Continues(components[1..][i], path[1..][i], parameters) by {
        forall i | 0 <= i < |components[1..]| && i < |path[1..]|
          ensures Continues(components[1..][i], path[1..][i], parameters)
        {
          assert Continues(components[i + 1], path[i + 1], parameters);
        }
      }
      CompareAllContinue(components[1..], path[1..], parameters);
    }
  }

  /** The first position that stops the walk decides the answer: a catch-all
      matches whatever follows, a differing constant fails, a slug with no
      resolver raises 500 and a resolver's error is passed on. */
  lemma {:induction false} CompareFirstStop(components: seq<PathComponent>, path: seq<string>, parameters: Parameters, k: nat)
    requires k < |components| && k < |path|
    requires forall i :: 0 <= i < k ==> Continues(components[i], path[i], parameters)
    requires !Continues(components[k], path[k], parameters)
    ensures Compare(components, path, parameters) == Stop(components[k], path[k], parameters)
  {
    if k > 0 {
      assert Continues(components[0], path[0], parameters);
      assert forall i :: 0 <= i < k - 1 ==> Continues(components[1..][i], path[1..][i], parameters) by {
        forall i | 0 <= i < k - 1 ensures Continues(components[1..][i], path[1..][i], parameters) {
          assert Continues(components[i + 1], path[i + 1], parameters);
        }
      }
      CompareFirstStop(components[1..], path[1..], parameters, k - 1);
    }
  }

  /** Only the overlap of pattern and path is looked at. */
  lemma {:induction false} CompareOverlap(components: seq<PathComponent>, path: seq<string>, parameters: Parameters)
    ensures var n := if |components| < |path| then |components| else |path|;
            Compare(components, path, parameters) == Compare(components[..n], path[..n], parameters)
  {
    var n := if |components| < |path| then |components| else |path|;
    if n > 0 {
      assert components[..n][1..] == components[1..][..n - 1];
      assert path[..n][1..] == path[1..][..n - 1];
      CompareOverlap(components[1..], path[1..], parameters);
    }
  }

  // ---------------------------------------------------------------------------
  // Selecting the restrictions that apply

  /** The request path without its leading "/". */
  function CleanPath(pathComponents: seq<string>): (path: seq<string>)
    ensures pathComponents != [] ==> [pathComponents[0]] + path == pathComponents
    ensures pathComponents == [] ==> path == []
  {
    if pathComponents == [] then [] else pathComponents[1..]
  }

  predicate MethodMatches(verb: Option<HttpMethod>, requestVerb: HttpMethod) {
    verb.None? || verb.value == requestVerb
  }

  /** A restriction without a method applies to every method, one with a method to that method only. */
  lemma MethodMatchesExactly(verb: Option<HttpMethod>, requestVerb: HttpMethod)
    ensures verb.None? ==> MethodMatches(verb, requestVerb)
    ensures verb.Some? ==> (MethodMatches(verb, requestVerb) <==> verb.value == requestVerb)
  {
  }

  /** A restriction applies to a request when its pattern matches the path
      and its method, if any, is the request's. */
  ghost predicate Applies(r: RouteRestriction, path: seq<string>, requestVerb: HttpMethod, parameters: Parameters) {
    Compare(r.path, path, parameters) == Ok(true) && MethodMatches(r.verb, requestVerb)
  }

  /** The `restrictions.filter { ... }` of `respond`. Every pattern is
      compared, even one whose method differs, and the first comparison that
      throws aborts the filter. */
  function Passing(rs: seq<RouteRestriction>, path: seq<string>, requestVerb: HttpMethod, parameters: Parameters)
    : (r: Result<seq<RouteRestriction>>)
    ensures r.Ok? ==> |r.value| <= |rs|
  {
    if rs == [] then Ok([])
    else
      match Compare(rs[0].path, path, parameters)
      case Err(e) => Err(e)
      case Ok(matched) =>
        var rest := Passing(rs[1..], path, requestVerb, parameters);
        if rest.Err? then rest
        else if matched && MethodMatches(rs[0].verb, requestVerb) then Ok([rs[0]] + rest.value)
        else rest
  }

  /** The restrictions that apply to the request, when no pattern comparison throws. */
  ghost predicate NoCompareError(rs: seq<RouteRestriction>, path: seq<string>, parameters: Parameters) {
    forall x :: x in rs ==> Compare(x.path, path, parameters).Ok?
  }

  /** The filter succeeds exactly when no pattern comparison throws. */
  lemma {:induction false} PassingSucceeds(rs: seq<RouteRestriction>, path: seq<string>, requestVerb: HttpMethod,
                                           parameters: Parameters)
    ensures Passing(rs, path, requestVerb, parameters).Ok? <==> NoCompareError(rs, path, parameters)
  {
    if rs != [] {
      PassingSucceeds(rs[1..], path, requestVerb, parameters);
      assert forall x :: x in rs <==> x == rs[0] || x in rs[1..];
    }
  }

  /** When the filter fails, its error is that of the first comparison that throws. */
  lemma {:induction false} PassingFirstError(rs: seq<RouteRestriction>, path: seq<string>, requestVerb: HttpMethod,
                                             parameters: Parameters)
    requires Passing(rs, path, requestVerb, parameters).Err?
    ensures exists i :: 0 <= i < |rs| &&
              Compare(rs[i].path, path, parameters) == Err(Passing(rs, path, requestVerb, parameters).error) &&
              forall j :: 0 <= j < i ==> Compare(rs[j].path, path, parameters).Ok?
  {
    var error := Passing(rs, path, requestVerb, parameters).error;
    if Compare(rs[0].path, path, parameters).Ok? {
      PassingFirstError(rs[1..], path, requestVerb, parameters);
      var i :| 0 <= i < |rs[1..]| && Compare(rs[1..][i].path, path, parameters) == Err(error) &&
               forall j :: 0 <= j < i ==> Compare(rs[1..][j].path, path, parameters).Ok?;
      assert rs[i + 1] == rs[1..][i];
      assert forall j :: 1 <= j < i + 1 ==> rs[j] == rs[1..][j - 1];
    } else {
      assert Compare(rs[0].path, path, parameters) == Err(error);
    }
  }

  /** When the filter succeeds, it keeps exactly the restrictions that apply. */
  lemma {:induction false} PassingMembers(rs: seq<RouteRestriction>, path: seq<string>, requestVerb: HttpMethod,
                                          parameters: Parameters)
    requires Passing(rs, path, requestVerb, parameters).Ok?
    ensures forall x :: x in Passing(rs, path, requestVerb, parameters).value <==>
                        x in rs && Applies(x, path, requestVerb, parameters)
  {
    if rs != [] {
      PassingMembers(rs[1..], path, requestVerb, parameters);
      assert forall x :: x in rs <==> x == rs[0] || x in rs[1..];
    }
  }

  /** The head of the filtered list, `passes[0]`, is the first restriction that applies. */
  lemma {:induction false} PassingHead(rs: seq<RouteRestriction>, path: seq<string>, requestVerb: HttpMethod,
                                       parameters: Parameters)
    requires Passing(rs, path, requestVerb, parameters).Ok? && Passing(rs, path, requestVerb, parameters).value != []
    ensures exists i :: 0 <= i < |rs| && rs[i] == Passing(rs, path, requestVerb, parameters).value[0] &&
              Applies(rs[i], path, requestVerb, parameters) &&
              forall j :: 0 <= j < i ==> !Applies(rs[j], path, requestVerb, parameters)
  {
    if !Applies(rs[0], path, requestVerb, parameters) {
      PassingHead(rs[1..], path, requestVerb, parameters);
      var i :| 0 <= i < |rs[1..]| && rs[1..][i] == Passing(rs[1..], path, requestVerb, parameters).value[0] &&
               Applies(rs[1..][i], path, requestVerb, parameters) &&
               forall j :: 0 <= j < i ==> !Applies(rs[1..][j], path, requestVerb, parameters);
      assert rs[i + 1] == rs[1..][i];
      assert forall j :: 1 <= j < i + 1 ==> rs[j] == rs[1..][j - 1];
    }
  }

  /** `passes.map { $0.allowed }.joined()`. */
  function AllowedStatuses(passes: seq<RouteRestriction>): (r: seq<Status>)
    ensures forall status :: status in r <==> exists p :: p in passes && status in p.allowed
  {
    if passes == [] then []
    else
      var rest := AllowedStatuses(passes[1..]);
      assert forall p :: p in passes <==> p == passes[0] || p in passes[1..];
      passes[0].allowed + rest
  }

  // ---------------------------------------------------------------------------
  // IDs the request is entitled to

  /** The `zip(path, matching).compactMap { … }.filter { $0.slug == slug }`
      stage of `ids`: the path elements that stand where the pattern has a
      parameter with `slug`, in path order. */
  function SlugElements(path: seq<string>, components: seq<PathComponent>, slug: string): (r: seq<string>)
    ensures |r| <= |path| && |r| <= |components|
    ensures forall e :: e in r <==> exists i :: 0 <= i < |path| && i < |components| &&
                                                components[i] == Parameter(slug) && path[i] == e
  {
    if path == [] || components == [] then []
    else
      var rest := SlugElements(path[1..], components[1..], slug);
      assert forall i :: 1 <= i < |path| && i < |components| ==>
               path[i] == path[1..][i - 1] && components[i] == components[1..][i - 1];
      if components[0] == Parameter(slug) then [path[0]] + rest else rest
  }

  /** The selection works position by position: the elements of two aligned
      stretches of path are those of the first followed by those of the
      second, so the order and the repetitions of the path are kept. */
  lemma {:induction false} SlugElementsAppend(p1: seq<string>, c1: seq<PathComponent>,
                                              p2: seq<string>, c2: seq<PathComponent>, slug: string)
    requires |p1| == |c1|
    ensures SlugElements(p1 + p2, c1 + c2, slug) == SlugElements(p1, c1, slug) + SlugElements(p2, c2, slug)
  {
    if p1 == [] {
      assert p1 + p2 == p2 && c1 + c2 == c2;
    } else {
      SlugElementsAppend(p1[1..], c1[1..], p2, c2, slug);
      assert (p1 + p2)[1..] == p1[1..] + p2;
      assert (c1 + c2)[1..] == c1[1..] + c2;
    }
  }

  /** One position: its element is selected exactly when the pattern has a
      parameter with the slug there. */
  lemma SlugElementsOne(element: string, component: PathComponent, slug: string)
    ensures SlugElements([element], [component], slug) == if component == Parameter(slug) then [element] else []
  {
    assert [element][1..] == [] && [component][1..] == [];
  }

  /** The throwing `map` stage of `ids`: every element parsed as an ID, in
      order, stopping with 400 at the first element that does not parse. */
  function ParseIds(elements: seq<string>, model: UserModel): (r: Result<seq<Id>>)
    ensures r.Ok? <==> forall k :: 0 <= k < |elements| ==> model.parseId(elements[k]).Some?
    ensures r.Ok? ==> |r.value| == |elements| &&
                      forall k :: 0 <= k < |elements| ==> model.parseId(elements[k]) == Some(r.value[k])
    ensures r.Err? ==> exists k :: 0 <= k < |elements| && model.parseId(elements[k]).None? &&
                                   r.error == UnparsableId(model.name, elements[k]) &&
                                   forall j :: 0 <= j < k ==> model.parseId(elements[j]).Some?
  {
    if elements == [] then Ok([])
    else match model.parseId(elements[0])
      case None => Err(UnparsableId(model.name, elements[0]))
      case Some(id) =>
        var rest :- ParseIds(elements[1..], model);
        Ok([id] + rest)
  }

  /** Parsing goes element by element from the front. */
  lemma ParseIdsCons(element: string, rest: seq<string>, model: UserModel)
    ensures ParseIds([element] + rest, model) ==
            match model.parseId(element)
            case None => Err(UnparsableId(model.name, element))
            case Some(id) => if ParseIds(rest, model).Err? then ParseIds(rest, model) else Ok([id] + ParseIds(rest, model).value)
  {
    assert ([element] + rest)[0] == element && ([element] + rest)[1..] == rest;
  }

  /** `ids(from:matching:for:)`: the elements of `path` that stand where the
      pattern has a parameter with the model's routing slug, parsed as IDs,
      in path order and with repetitions; 400 at the first of them that does
      not parse. */
  function Ids(path: seq<string>, components: seq<PathComponent>, model: UserModel): (r: Result<seq<Id>>)
    ensures r.Err? <==> exists i :: 0 <= i < |path| && i < |components| &&
                                    components[i] == Parameter(model.routingSlug) && model.parseId(path[i]).None?
    ensures r.Err? ==> exists i :: 0 <= i < |path| && i < |components| &&
                                   components[i] == Parameter(model.routingSlug) && r.error == UnparsableId(model.name, path[i])
    ensures r.Ok? ==> forall x :: x in r.value <==>
                        exists i :: 0 <= i < |path| && i < |components| &&
                                    components[i] == Parameter(model.routingSlug) && model.parseId(path[i]) == Some(x)
    ensures var elements := SlugElements(path, components, model.routingSlug);
            && (r.Ok? ==> |r.value| == |elements| &&
                          forall k :: 0 <= k < |elements| ==> model.parseId(elements[k]) == Some(r.value[k]))
            && (r.Err? ==> exists k :: 0 <= k < |elements| && model.parseId(elements[k]).None? &&
                                       r.error == UnparsableId(model.name, elements[k]) &&
                                       forall j :: 0 <= j < k ==> model.parseId(elements[j]).Some?)
  {
    var elements := SlugElements(path, components, model.routingSlug);
    IdsOfElementsFail(path, components, model, elements);
    IdsOfElementsMembers(path, components, model, elements);
    ParseIds(elements, model)
  }

  /** Where the model's slug stands in the pattern at a position of the path. */
  predicate SlugAt(path: seq<string>, components: seq<PathComponent>, slug: string, i: int) {
    0 <= i < |path| && i < |components| && components[i] == Parameter(slug)
  }

  /** What `ParseIds` gives on the selected elements, restated over the
      positions of the path: the first two clauses of `Ids`. */
  lemma IdsOfElementsFail(path: seq<string>, components: seq<PathComponent>, model: UserModel, elements: seq<string>)
    requires elements == SlugElements(path, components, model.routingSlug)
    ensures ParseIds(elements, model).Err? <==>
              exists i :: SlugAt(path, components, model.routingSlug, i) && model.parseId(path[i]).None?
    ensures ParseIds(elements, model).Err? ==>
              exists i :: SlugAt(path, components, model.routingSlug, i) &&
                          ParseIds(elements, model).error == UnparsableId(model.name, path[i])
  {
    if ParseIds(elements, model).Err? {
      var k :| 0 <= k < |elements| && model.parseId(elements[k]).None? &&
               ParseIds(elements, model).error == UnparsableId(model.name, elements[k]);
      ElementAt(path, components, model.routingSlug, elements, k);
      var i :| SlugAt(path, components, model.routingSlug, i) && path[i] == elements[k];
      assert model.parseId(path[i]).None?;
    } else {
      forall i | SlugAt(path, components, model.routingSlug, i)
        ensures model.parseId(path[i]).Some?
      {
        var k := IndexOfSlugElement(path, components, model.routingSlug, elements, i);
      }
    }
  }

  /** The third clause of `Ids`: its IDs are those of the slug positions. */
  lemma IdsOfElementsMembers(path: seq<string>, components: seq<PathComponent>, model: UserModel, elements: seq<string>)
    requires elements == SlugElements(path, components, model.routingSlug)
    ensures ParseIds(elements, model).Ok? ==>
              forall x :: x in ParseIds(elements, model).value <==>
                exists i :: 0 <= i < |path| && i < |components| &&
                            components[i] == Parameter(model.routingSlug) && model.parseId(path[i]) == Some(x)
  {
    var r := ParseIds(elements, model);
    if r.Ok? {
      forall x | x in r.value
        ensures exists i :: SlugAt(path, components, model.routingSlug, i) && model.parseId(path[i]) == Some(x)
      {
        var k :| 0 <= k < |r.value| && r.value[k] == x;
        ElementAt(path, components, model.routingSlug, elements, k);
      }
      forall i | SlugAt(path, components, model.routingSlug, i)
        ensures model.parseId(path[i]).Some? && model.parseId(path[i]).value in r.value
      {
        var k := IndexOfSlugElement(path, components, model.routingSlug, elements, i);
        assert r.value[k] in r.value;
      }
    }
  }

  /** Each selected element stands at a position where the pattern has the slug. */
  lemma ElementAt(path: seq<string>, components: seq<PathComponent>, slug: string, elements: seq<string>, k: int)
    requires elements == SlugElements(path, components, slug) && 0 <= k < |elements|
    ensures exists i :: SlugAt(path, components, slug, i) && path[i] == elements[k]
  {
    assert elements[k] in elements;
  }

  /** Each position where the pattern has the slug gives a selected element. */
  lemma IndexOfSlugElement(path: seq<string>, components: seq<PathComponent>, slug: string, elements: seq<string>, i: int)
    returns (k: int)
    requires elements == SlugElements(path, components, slug) && SlugAt(path, components, slug, i)
    ensures 0 <= k < |elements| && elements[k] == path[i]
  {
    assert path[i] in elements;
    k :| 0 <= k < |elements| && elements[k] == path[i];
  }

  /** Two IDs of the model's slug come back in the order of the path. */
  lemma IdsKeepPathOrder(model: UserModel, first: string, second: string, x: Id, y: Id)
    requires model.parseId(first) == Some(x) && model.parseId(second) == Some(y)
    ensures Ids([first, second], [Parameter(model.routingSlug), Parameter(model.routingSlug)], model) == Ok([x, y])
  {
    var slug := model.routingSlug;
    SlugElementsOne(first, Parameter(slug), slug);
    SlugElementsOne(second, Parameter(slug), slug);
    SlugElementsAppend([first], [Parameter(slug)], [second], [Parameter(slug)], slug);
    assert [first] + [second] == [first, second];
    assert [Parameter(slug)] + [Parameter(slug)] == [Parameter(slug), Parameter(slug)];
    assert SlugElements([first, second], [Parameter(slug), Parameter(slug)], slug) == [first, second];
    assert [first, second][1..] == [second] && [second][1..] == [];
    ParseIdsCons(second, [], model);
    assert ParseIds([], model) == Ok([]);
    assert ParseIds([second], model) == Ok([y]) by { assert [second] + [] == [second] && [y] + [] == [y]; }
    ParseIdsCons(first, [second], model);
    assert ParseIds([first, second], model) == Ok([x, y]) by { assert [x] + [y] == [x, y]; }
  }

  /** `authedIDs(from:matching:and:for:)`: the path's IDs, followed by the
      authenticated model's ID when there is one. */
  function AuthedIds(path: seq<string>, components: seq<PathComponent>, model: UserModel, authed: Option<User>)
    : (r: Result<seq<Id>>)
    ensures r.Ok? <==> Ids(path, components, model).Ok?
    ensures r.Err? ==> r.error == Ids(path, components, model).error
    ensures r.Ok? ==> forall x :: x in r.value <==> x in Ids(path, components, model).value || (authed.Some? && x == authed.value.id)
    ensures r.Ok? ==> |r.value| == |Ids(path, components, model).value| + (if authed.Some? then 1 else 0)
    ensures r.Ok? ==> r.value[..|Ids(path, components, model).value|] == Ids(path, components, model).value
    ensures r.Ok? && authed.Some? ==> r.value[|r.value| - 1] == authed.value.id
  {
    var ids :- Ids(path, components, model);
    Ok(if authed.Some? then ids + [authed.value.id] else ids)
  }

  // ---------------------------------------------------------------------------
  // The decision

  /** The guard of `respond`, given at least one applying restriction: a
      payload is stored and its status is allowed by an applying restriction,
      or its ID is among those the first applying restriction entitles to. */
  predicate Granted(passes: seq<RouteRestriction>, path: seq<string>, model: UserModel, s: Snapshot)
    requires passes != []
  {
    match StoredPayload(s.storage)
    case Err(_) => false
    case Ok(payload) =>
      payload.status in AllowedStatuses(passes) ||
      match AuthedIds(path, passes[0].path, model, s.authed)
      case Err(_) => false
      case Ok(ids) => payload.id in ids
  }

  /** The guard, stated over the passing restrictions: a payload is stored,
      and some passing restriction allows its status, or the IDs of the
      first one contain its ID. An `ids` error only denies, like a failed guard. */
  lemma GrantedExactly(passes: seq<RouteRestriction>, path: seq<string>, model: UserModel, s: Snapshot)
    requires passes != []
    ensures Granted(passes, path, model, s) <==>
              PayloadKey in s.storage &&
              ((exists p :: p in passes && s.storage[PayloadKey].status in p.allowed) ||
               (AuthedIds(path, passes[0].path, model, s.authed).Ok? &&
                s.storage[PayloadKey].id in AuthedIds(path, passes[0].path, model, s.authed).value))
  {
  }

  /** `respond(to:chainingTo:)`, as the decision whether to call the next responder. */
  function Decide(mw: RouteRestrictionMiddleware, requestVerb: HttpMethod, pathComponents: seq<string>,
                  model: UserModel, s: Snapshot): (r: Outcome)
    ensures r.Failed? ==>
      r.error == Abort(mw.failureError, None) ||
      exists i :: 0 <= i < |mw.restrictions| &&
                  Compare(mw.restrictions[i].path, CleanPath(pathComponents), mw.parameters) == Err(r.error)
  {
    var path := CleanPath(pathComponents);
    match Passing(mw.restrictions, path, requestVerb, mw.parameters)
    case Err(e) => PassingFirstError(mw.restrictions, path, requestVerb, mw.parameters); Failed(e)
    case Ok(passes) =>
      if passes == [] then Forwarded
      else if Granted(passes, path, model, s) then Forwarded
      else Failed(Abort(mw.failureError, None))
  }

  /** The self-access condition: the payload's ID is among those entitled by
      the first restriction that applies. */
  ghost predicate SelfAccess(rs: seq<RouteRestriction>, path: seq<string>, requestVerb: HttpMethod,
                             parameters: Parameters, model: UserModel, s: Snapshot, payload: Payload) {
    exists i :: 0 <= i < |rs| && Applies(rs[i], path, requestVerb, parameters) &&
                (forall j :: 0 <= j < i ==> !Applies(rs[j], path, requestVerb, parameters)) &&
                AuthedIds(path, rs[i].path, model, s.authed).Ok? &&
                payload.id in AuthedIds(path, rs[i].path, model, s.authed).value
  }

  /** The whole decision, stated over the restrictions themselves: the next
      responder is called iff no comparison throws and either no restriction
      applies, or a payload is stored and is admitted by status or by
      self-access. */
  lemma DecideForwardsExactly(mw: RouteRestrictionMiddleware, requestVerb: HttpMethod, pathComponents: seq<string>,
                              model: UserModel, s: Snapshot)
    ensures var path := CleanPath(pathComponents);
            var rs := mw.restrictions;
            Decide(mw, requestVerb, pathComponents, model, s) == Forwarded <==>
              NoCompareError(rs, path, mw.parameters) &&
              ((forall x :: x in rs ==> !Applies(x, path, requestVerb, mw.parameters)) ||
               (PayloadKey in s.storage &&
                ((exists x :: x in rs && Applies(x, path, requestVerb, mw.parameters) &&
                              s.storage[PayloadKey].status in x.allowed) ||
                 SelfAccess(rs, path, requestVerb, mw.parameters, model, s, s.storage[PayloadKey]))))
  {
    var path := CleanPath(pathComponents);
    var rs := mw.restrictions;
    var passing := Passing(rs, path, requestVerb, mw.parameters);
    PassingSucceeds(rs, path, requestVerb, mw.parameters);
    if passing.Ok? {
      var passes := passing.value;
      PassingMembers(rs, path, requestVerb, mw.parameters);
      if passes != [] {
        assert passes[0] in passes;
        PassingHead(rs, path, requestVerb, mw.parameters);
        var i :| 0 <= i < |rs| && rs[i] == passes[0] && Applies(rs[i], path, requestVerb, mw.parameters) &&
                 forall j :: 0 <= j < i ==> !Applies(rs[j], path, requestVerb, mw.parameters);
        if PayloadKey in s.storage {
          SelfAccessAtFirst(rs, path, requestVerb, mw.parameters, model, s, s.storage[PayloadKey], i);
        }
      }
    }
  }

  /** Only the first applying restriction can grant self-access. */
  lemma SelfAccessAtFirst(rs: seq<RouteRestriction>, path: seq<string>, requestVerb: HttpMethod,
                          parameters: Parameters, model: UserModel, s: Snapshot, payload: Payload, i: nat)
    requires i < |rs| && Applies(rs[i], path, requestVerb, parameters)
    requires forall j :: 0 <= j < i ==> !Applies(rs[j], path, requestVerb, parameters)
    ensures SelfAccess(rs, path, requestVerb, parameters, model, s, payload) <==>
              AuthedIds(path, rs[i].path, model, s.authed).Ok? &&
              payload.id in AuthedIds(path, rs[i].path, model, s.authed).value
  {
  }

  /** Fail-open: when no restriction applies (and no comparison throws), the
      request goes on, whatever is or is not stored in it. */
  lemma FailOpen(mw: RouteRestrictionMiddleware, requestVerb: HttpMethod, pathComponents: seq<string>,
                 model: UserModel, s: Snapshot)
    requires forall x :: x in mw.restrictions ==>
               Compare(x.path, CleanPath(pathComponents), mw.parameters).Ok? &&
               !Applies(x, CleanPath(pathComponents), requestVerb, mw.parameters)
    ensures Decide(mw, requestVerb, pathComponents, model, s) == Forwarded
  {
    DecideForwardsExactly(mw, requestVerb, pathComponents, model, s);
  }

  /** Once a restriction applies, a missing payload and a denied one are
      reported identically, with the configured status. */
  lemma FailureCollapses(mw: RouteRestrictionMiddleware, requestVerb: HttpMethod, pathComponents: seq<string>,
                         model: UserModel, s: Snapshot)
    requires NoCompareError(mw.restrictions, CleanPath(pathComponents), mw.parameters)
    ensures Decide(mw, requestVerb, pathComponents, model, s).Failed? ==>
              Decide(mw, requestVerb, pathComponents, model, s).error == Abort(mw.failureError, None)
    ensures (exists x :: x in mw.restrictions && Applies(x, CleanPath(pathComponents), requestVerb, mw.parameters)) &&
            PayloadKey !in s.storage ==>
              Decide(mw, requestVerb, pathComponents, model, s) == Failed(Abort(mw.failureError, None))
  {
    DecideForwardsExactly(mw, requestVerb, pathComponents, model, s);
  }

  /** When the request's model is authenticated and its ID is the payload's,
      every applying restriction is passed whatever the payload's status,
      unless a path ID fails to parse: `authedIDs` always contains that ID. */
  lemma AuthenticatedOwnerPasses(mw: RouteRestrictionMiddleware, requestVerb: HttpMethod, pathComponents: seq<string>,
                                 model: UserModel, s: Snapshot, user: User)
    requires NoCompareError(mw.restrictions, CleanPath(pathComponents), mw.parameters)
    requires PayloadKey in s.storage && s.authed == Some(user) && user.id == s.storage[PayloadKey].id
    requires forall x :: x in mw.restrictions ==> Ids(CleanPath(pathComponents), x.path, model).Ok?
    ensures Decide(mw, requestVerb, pathComponents, model, s) == Forwarded
  {
    var path := CleanPath(pathComponents);
    var passing := Passing(mw.restrictions, path, requestVerb, mw.parameters);
    PassingSucceeds(mw.restrictions, path, requestVerb, mw.parameters);
    if passing.value != [] {
      PassingMembers(mw.restrictions, path, requestVerb, mw.parameters);
      assert passing.value[0] in passing.value;
    }
  }

  /** Self-access, on the restriction `GET /users/:user` admitting only
      "admin": a caller with another status is let through exactly when the
      ID in the path is its own. */
  lemma SelfAccessScenario(mw: RouteRestrictionMiddleware, model: UserModel, s: Snapshot, element: string, id: Id)
    requires mw.restrictions == [RouteRestriction(Some(GET), [Constant("users"), Parameter(model.routingSlug)], ["admin"])]
    requires model.routingSlug in mw.parameters && mw.parameters[model.routingSlug](element) == Resolved
    requires model.parseId(element) == Some(id)
    requires PayloadKey in s.storage && s.storage[PayloadKey].status != "admin" && s.authed == None
    ensures Decide(mw, GET, ["/", "users", element], model, s) ==
              if s.storage[PayloadKey].id == id then Forwarded else Failed(Abort(mw.failureError, None))
  {
    var path := ["users", element];
    assert CleanPath(["/", "users", element]) == path;
    assert Compare([Parameter(model.routingSlug)], [element], mw.parameters) == Ok(true);
    assert Compare(mw.restrictions[0].path, path, mw.parameters) == Ok(true);
    assert mw.restrictions[1..] == [] && [mw.restrictions[0]] + [] == mw.restrictions;
    assert Passing(mw.restrictions, path, GET, mw.parameters) == Ok(mw.restrictions);
    assert Ids([], [], model) == Ok([]);
    assert [element][1..] == [] && [Parameter(model.routingSlug)][1..] == [];
    assert [id] + [] == [id];
    assert Ids([element], [Parameter(model.routingSlug)], model) == Ok([id]);
    assert Ids(path, mw.restrictions[0].path, model) == Ok([id]);
  }

  /** The restriction "/admin/ then a catch-all" admitting "admin", on `GET /admin/reports`
      with no parameter in the pattern: an admin passes, anyone else gets the
      configured failure status. */
  lemma AdminScenario(mw: RouteRestrictionMiddleware, model: UserModel, s: Snapshot)
    requires mw.restrictions == [RouteRestriction(None, [Constant("admin"), Catchall], ["admin"])]
    requires PayloadKey in s.storage && s.authed == None
    ensures Decide(mw, GET, ["/", "admin", "reports"], model, s) ==
              if s.storage[PayloadKey].status == "admin" then Forwarded else Failed(Abort(mw.failureError, None))
  {
    var path := ["admin", "reports"];
    assert CleanPath(["/", "admin", "reports"]) == path;
    assert Compare([Catchall], ["reports"], mw.parameters) == Ok(true);
    assert Compare(mw.restrictions[0].path, path, mw.parameters) == Ok(true);
    assert mw.restrictions[1..] == [] && [mw.restrictions[0]] + [] == mw.restrictions;
    assert Passing(mw.restrictions, path, GET, mw.parameters) == Ok(mw.restrictions);
    assert Ids(["reports"], [Catchall], model) == Ok([]);
    assert Ids(path, mw.restrictions[0].path, model) == Ok([]);
  }

  /** `respond(to:chainingTo:)` on a request: reads the method, path, stored
      payload and authenticated model, changes nothing, and calls the next
      responder once exactly when `Decide` says so. */
  method Respond(mw: RouteRestrictionMiddleware, req: Request, model: UserModel) returns (r: Outcome)
    modifies req
    ensures r == Decide(mw, req.verb, req.pathComponents, model, old(req.Current()))
    ensures req.Current() == old(req.Current())
    ensures req.nextLog == old(req.nextLog) + Handed(Effect(r, old(req.Current())))
  {
    r := Decide(mw, req.verb, req.pathComponents, model, req.Current());
    if r.Forwarded? {
      req.Next();
    }
  }
}

=== FILE: verification.dfy ===
/** `JWTStorageMiddleware`, which re-stores the payload a previous stage
    stored, and `JWTVerificationMiddleware`, which only lets through a
    request whose bearer token the token service verifies. */
module Verification {
  import opened Http
  import opened Models
  import opened Requests
  import opened RequestJwt

  /** `JWTStorageMiddleware.respond`: read the payload with `payload(as:)`
      (500 when none is stored) and store it under "skelpo-payload". */
  function StorageStep(s: Snapshot): (e: Effect)
    ensures e.outcome.Forwarded? <==> PayloadKey in s.storage
    ensures e.outcome.Failed? ==> e.outcome.error == NoMiddlewareRegistered && e.after == s
    ensures e.outcome.Forwarded? ==>
              e.after.authed == s.authed && SkelpoPayloadKey in e.after.storage &&
              e.after.storage[SkelpoPayloadKey] == s.storage[PayloadKey] &&
              forall k :: k != SkelpoPayloadKey ==> (k in e.after.storage <==> k in s.storage)
  {
    match StoredPayload(s.storage)
    case Err(error) => Effect(Failed(error), s)
    case Ok(payload) => Effect(Forwarded, Snapshot(s.storage[SkelpoPayloadKey := payload], s.authed))
  }

  /** Since the payload is read from and written to the same key, the
      storage stage never changes the request: it only turns a missing
      payload into a 500. */
  lemma StorageStepChangesNothing(s: Snapshot)
    ensures StorageStep(s).after == s
  {
  }

  /** `JWTStorageMiddleware.respond` on a request. */
  method StorageRespond(req: Request) returns (r: Outcome)
    modifies req
    ensures var e := StorageStep(old(req.Current()));
            && r == e.outcome
            && req.Current() == e.after
            && req.nextLog == old(req.nextLog) + Handed(e)
  {
    var payload := StoredPayload(req.storage);
    if payload.Err? {
      return Failed(payload.error);
    }
    req.storage := req.storage[SkelpoPayloadKey := payload.value];
    req.Next();
    r := Forwarded;
  }

  const MissingBearerHeader: Error := Abort(BadRequest, Some("'Authorization' header with bearer token is missing"))
  const VerificationFailed: Error := Abort(Forbidden, Some("JWT verification failed"))

  /** `JWTVerificationMiddleware.respond`, `verify` standing for the token
      service's signature check (which may itself throw). */
  function Verify(bearer: Option<string>, verify: string -> Result<bool>): (r: Outcome)
    ensures r.Forwarded? <==> bearer.Some? && verify(bearer.value) == Ok(true)
    ensures bearer.None? ==> r == Failed(MissingBearerHeader)
    ensures bearer.Some? && verify(bearer.value) == Ok(false) ==> r == Failed(VerificationFailed)
    ensures bearer.Some? && verify(bearer.value).Err? ==> r == Failed(verify(bearer.value).error)
  {
    match bearer
    case None => Failed(MissingBearerHeader)
    case Some(token) =>
      match verify(token)
      case Err(error) => Failed(error)
      case Ok(valid) => if valid then Forwarded else Failed(VerificationFailed)
  }

  /** A missing header (400) and a bad signature (403) are told apart. */
  lemma MissingHeaderIsNotForbidden(token: string, verify: string -> Result<bool>)
    requires verify(token) == Ok(false)
    ensures Verify(None, verify) != Verify(Some(token), verify)
    ensures Verify(None, verify).error.status == 400 && Verify(Some(token), verify).error.status == 403
  {
  }

  /** `JWTVerificationMiddleware.respond` on a request: it never changes the
      request, and hands it on exactly when the token verifies. */
  method VerificationRespond(req: Request, verify: string -> Result<bool>) returns (r: Outcome)
    modifies req
    ensures r == Verify(req.bearer, verify)
    ensures req.Current() == old(req.Current())
    ensures req.nextLog == old(req.nextLog) + Handed(Effect(r, old(req.Current())))
  {
    if req.bearer.None? {
      return Failed(MissingBearerHeader);
    }
    var valid := verify(req.bearer.value);
    if valid.Err? {
      return Failed(valid.error);
    }
    if !valid.value {
      return Failed(VerificationFailed);
    }
    req.Next();
    r := Forwarded;
  }
}
